=== FILE: README.md ===
# shophub — a Dafny model of the shop's request handlers and client logic

shophub is a small web shop with a PHP/MySQL backend and a React client.
This project models the parts that decide behaviour:

- **The backend handlers.**
  - `orders.php`: list orders, place an order from the cart, set an order's status.
  - `cart.php`: list, add, set the quantity, remove.
  - `products.php`: catalog read, and admin create, update and delete.
  - `auth.php`: register, login, logout.
  - `users.php`: the admin user listing.
- **The token guard of `db.php`.**
  - `authenticate()` strips `Bearer `, decodes the token, and checks the user and the expiry.
  - `generateToken()` issues a payload with a 24-hour expiry.
- **The client logic.**
  - The catalog page (`Home.js`): search, category and price filters; the sort comparator; the reset to page 1; pagination, 12 products per page.
  - The registration form (`Register.js`): the four field checks and the payload that is sent.
  - The product page (`ProductDetail.js`): the quantity buttons, the clamp on the typed quantity, the stock badge and the "add to cart" button.

How the model is built:

- **The database** is an immutable `Store.Db`: users, products, cart lines, orders, order items, and an id counter.
- **Handlers** are pure functions from a database and a request to a pair `(Db, Response)`.
  - `Store.Env` is everything a handler does not decide itself:
    - the clock, `now`;
    - whether the database write fails, `writeFails`;
    - the salt for the password hash.
  - `Store.Externals` is everything that depends on the schema or foreign code:
    - the conversion of a JSON value to an INT or DECIMAL column;
    - the default order status and the default user role;
    - `password_hash` and `password_verify`.
- **PHP's loose tests** are written out in `Php`: `empty()`, `??`, query-string truthiness and the string cast.
- **The client's JavaScript semantics** are written out in `Text`:
  - JavaScript whitespace and `trim()`;
  - UTF-16 length;
  - `parseInt`;
  - `toLowerCase` and `includes`.
- **Money** is in integer cents.
- **`Backend.Serve`** routes a request to the right endpoint.
  - `Backend.Healthy` is the database invariant every endpoint keeps:
    - every id lies below the counter;
    - a user has at most one cart line per product;
    - e-mail addresses are unique;
    - each order's total is the sum of its items.

## Model

| member | source | states |
|---|---|---|
| Text.Lower | src/pages/Home.js:43-44 | lower-casing keeps the length and maps each character on its own |
| Text.ContainsIff | src/pages/Home.js:43-44 | `includes` holds exactly when the needle occurs at some position of the text |
| Text.TrimStart | src/pages/Register.js:63 | the result is a suffix of the input, everything dropped is whitespace, and the result does not start with whitespace |
| Text.TrimEnd | src/pages/Register.js:63 | the result is a prefix of the input, everything dropped is whitespace, and the result does not end with whitespace |
| Text.Trim | src/pages/Register.js:63-65 | the trimmed name is a contiguous slice of the input and everything dropped on either side is whitespace; it is empty exactly when the input is all whitespace; otherwise neither end is whitespace |
| Text.AllSpaceJoin | src/pages/Register.js:63 | two all-whitespace strings joined are all whitespace |
| Text.TrimParts | src/pages/Register.js:63 | trimming the start and then the end leaves a slice of the input that is empty exactly when the input is all whitespace |
| Text.Utf16Length | src/pages/Register.js:65 | a string's `.length` in UTF-16 code units lies between its code-point count and twice that count |
| Text.RemoveAll | backend/config/db.php:30 | `str_replace` of a non-empty pattern never lengthens the header |
| Text.OccursShift | backend/config/db.php:30 | an occurrence in the tail is an occurrence one position later in the whole string |
| Text.RemoveAllKeepsHead | backend/config/db.php:30 | a first character that does not start the pattern is kept, and the rest is scanned on its own |
| Text.RemoveAllShort | backend/config/db.php:30 | a string shorter than the pattern is left unchanged |
| Text.RemoveAllAbsent | backend/config/db.php:30 | a header without the pattern is left unchanged |
| Text.RemoveAllSplits | backend/config/db.php:30 | the first occurrence of the pattern is cut out, and replacement continues after it |
| Text.DigitValue | src/components/ProductDetail.js:120 | a digit character has the value whose digit it is |
| Text.NatToText | src/components/ProductDetail.js:119-120 | a number renders as a non-empty string of digits |
| Text.DigitPrefix | src/components/ProductDetail.js:120 | `parseInt` reads the longest prefix of digits |
| Text.DigitsOfNat | src/components/ProductDetail.js:119-120 | reading back the digits of a number gives the number |
| Text.DigitPrefixAll | src/components/ProductDetail.js:120 | a string of digits is its own digit prefix |
| Text.ParseDigits | src/components/ProductDetail.js:120 | `parseInt` of a string of digits is their value |
| Text.SignedPos | src/components/ProductDetail.js:120 | an unsigned string of digits parses to its value |
| Text.ParseNegDigits | src/components/ProductDetail.js:120 | `parseInt` of a minus sign followed by digits is the negated value |
| Text.JsParseInt | src/components/ProductDetail.js:120 | `parseInt` gives NaN exactly when no digit follows the leading whitespace and an optional sign; whitespace-only text is NaN |
| Text.TrimStartKeeps | src/components/ProductDetail.js:120 | text that does not start with whitespace is not changed by `parseInt`'s leading trim |
| Text.SignedNeg | src/components/ProductDetail.js:120 | a minus sign followed by digits parses to the negated value |
| Text.IntTextRoundTrip | src/components/ProductDetail.js:119-120 | `parseInt` of the text an input field shows for any integer gives back that integer |
| Php.Empty | backend/api/products.php:44 | among the JSON scalars modelled (null, booleans, integers, strings), PHP's `empty()` holds for exactly null, false, 0, "" and "0" |
| Php.EmptyText | backend/api/products.php:38-48 | a value PHP calls empty is stored as "" or "0" |
| Php.NonEmptyText | backend/api/products.php:38-57 | a value PHP does not call empty is stored as neither "" nor "0" |
| Seqs.Filter | src/pages/Home.js:42-66 | a filter keeps exactly the elements that pass its test, and never grows the list |
| Seqs.FilterMultiset | src/pages/Home.js:42-66 | a filter keeps every copy of an element that passes and none of one that fails |
| Seqs.SubsequenceOfTail | src/pages/Home.js:38-71 | a subsequence of the tail is a subsequence of the whole list |
| Seqs.SubsequenceDropFirst | src/pages/Home.js:38-71 | dropping the first element of a subsequence leaves a subsequence |
| Seqs.SubsequenceTrans | src/pages/Home.js:38-71 | a subsequence of a subsequence is a subsequence, so the chained filters keep the catalog order |
| Seqs.FilterIsSubsequence | src/pages/Home.js:42-66 | a filter keeps the survivors in their original order |
| Seqs.SubsequenceRefl | src/pages/Home.js:41-71 | a list is a subsequence of itself, so a skipped filter step still keeps the catalog order |
| Sorting.Insert | src/pages/Home.js:74-87 | inserting one element adds exactly that element |
| Sorting.Sort | src/pages/Home.js:74-87 | sorting permutes the list |
| Sorting.InsertMembers | src/pages/Home.js:74-87 | inserting adds no element other than the one inserted |
| Sorting.LeadsInsert | src/pages/Home.js:74-87 | a lower bound on the list and on the new element stays a lower bound after the insertion |
| Sorting.InsertSorted | src/pages/Home.js:74-87 | inserting into a list ordered by a key that the comparator follows keeps it ordered |
| Sorting.SortSorted | src/pages/Home.js:74-87 | sorting with a comparator that follows a key orders the list by that key |
| Sorting.SortKeepsTies | src/pages/Home.js:84-85 | a comparator that calls every pair equal leaves the list as it was (the sort is stable) |
| Store.FindProduct | backend/api/products.php:11-20 | the lookup returns the product with that id, or reports that no product has it |
| Store.FindUser | backend/api/orders.php:15-17 | the join finds the order's user, or reports that there is none |
| Store.NewestFirst | backend/api/products.php:23-25 | `ORDER BY created_at DESC` permutes the rows |
| Store.NewestFirstOrdered | backend/api/products.php:23-25 | the rows come out with non-increasing creation time |
| TokenCodec.EncodeNat | backend/config/db.php:56 | a number is written as decimal digits, least significant first, closed by ';'; the encoding starts with a digit and has at least two characters |
| TokenCodec.EncodeNatShape | backend/config/db.php:56 | the full layout of an encoded number: every character but the closing ';' is a digit, the first digit is the number's last decimal digit, a number below 10 takes exactly two characters, and the rest of a longer encoding is the encoding of the number divided by 10 |
| TokenCodec.NatRoundTrip | backend/config/db.php:31 | a written number decodes back to itself, leaving what follows untouched |
| TokenCodec.IntRoundTrip | backend/config/db.php:31 | a written integer, negative or not, decodes back to itself |
| TokenCodec.EscapeChar | backend/config/db.php:56 | each character of a text field is written as two characters |
| TokenCodec.Escape | backend/config/db.php:56 | an escaped text field is twice as long as the text |
| TokenCodec.EscapeRoundTrip | backend/config/db.php:31 | an escaped text decodes back to the text |
| TokenCodec.TextRoundTrip | backend/config/db.php:31 | a written text field decodes back to itself |
| TokenCodec.OptIntRoundTrip | backend/config/db.php:31 | a present or absent timestamp decodes back to itself |
| TokenCodec.ClaimRoundTrip | backend/config/db.php:31 | a user claim (id, name, email, role) decodes back to itself |
| TokenCodec.UserRoundTrip | backend/config/db.php:31 | a present or absent user decodes back to itself |
| TokenCodec.TagSplit | backend/config/db.php:31 | a tagged field splits into its tag and its body |
| TokenCodec.DecodeSomeUser | backend/config/db.php:31 | a field tagged as present decodes to its claim |
| TokenCodec.RoundTrip | backend/config/db.php:31-56 | decoding the text of an issued token gives back the payload it encodes |
| TokenCodec.NatSpaceFree | backend/config/db.php:30 | a written number contains no space |
| TokenCodec.EscapeSpaceFree | backend/config/db.php:30 | an escaped text contains no space |
| TokenCodec.IntSpaceFree | backend/config/db.php:30 | a written integer contains no space |
| TokenCodec.TextSpaceFree | backend/config/db.php:30 | a written text field contains no space |
| TokenCodec.OptIntSpaceFree | backend/config/db.php:30 | a written timestamp field contains no space |
| TokenCodec.UserSpaceFree | backend/config/db.php:30 | a written user field contains no space |
| TokenCodec.SpaceFree | backend/config/db.php:30-56 | a token contains no space, so it cannot contain `Bearer ` |
| AuthGuard.Authenticate | backend/config/db.php:22-47 | a missing header gives 401 "No token provided"; every failure is a 401; a success returns the user of the payload the stripped header decodes to |
| AuthGuard.MalformedRejected | backend/config/db.php:30-37 | a header whose stripped text does not decode gives 401 "Invalid token" |
| AuthGuard.SpaceFreeHasNoPrefix | backend/config/db.php:30 | text without a space contains no `Bearer ` anywhere |
| AuthGuard.BearerStripped | backend/config/db.php:30 | `Bearer ` followed by a token strips to the token |
| AuthGuard.RepeatedPrefixStripped | backend/config/db.php:30 | a doubled `Bearer Bearer ` is also stripped completely, because `str_replace` removes every occurrence |
| AuthGuard.TrailingPrefixStripped | backend/config/db.php:30 | a `Bearer ` after the token is removed too |
| AuthGuard.NoOccurrenceInside | backend/config/db.php:30 | no occurrence of `Bearer ` starts inside a token followed by the prefix |
| AuthGuard.AuthenticateEncoded | backend/config/db.php:22-47 | for a well-formed bearer token: no user gives "Invalid token"; an expiry before now gives "Token expired"; otherwise the payload's user is returned, without any check of who made the token |
| AuthGuard.GenerateToken | backend/config/db.php:49-57 | the payload names the user, is stamped with the current time, and expires exactly 24 hours later |
| AuthGuard.IssuedTokenRoundTrip | backend/config/db.php:40-57 | a token issued at time t authenticates its user until t + 24 h inclusive, and is refused as expired after that |
| Orders.PricedCart | backend/api/orders.php:55-68 | the joined cart holds only the caller's lines whose product exists, each priced at that product's price; it is empty exactly when no such line exists |
| Orders.NewItems | backend/api/orders.php:84-87 | one order item is made per priced cart line |
| Orders.NewItemsTotal | backend/api/orders.php:70-87 | the items written for an order add up to the cart total stored on the order |
| Orders.PlaceOrder | backend/api/orders.php:43-99 | no address: 400; an empty joined cart: 400 "Cart is empty"; a failed write: 400 "Failed to place order", rolled back so nothing changes; otherwise exactly one order with the default status, one item per line at the captured price summing to the total, the caller's cart emptied and nobody else's touched, and the new order id returned |
| Orders.UpdateStatus | backend/api/orders.php:100-130 | a non-admin gets 403; a missing id or status gives 400; a failed write gives 400 "Failed to update order"; otherwise exactly the orders with that id take the status and nothing else changes |
| Orders.AdminRows | backend/api/orders.php:13-23 | the admin rows are the orders whose user exists, each with that user's name |
| Orders.ItemRows | backend/api/orders.php:30-37 | an order's item rows are its items whose product exists, with that product's name |
| Orders.OwnRows | backend/api/orders.php:25-41 | each of the caller's orders comes with its own item rows |
| Orders.ListOrders | backend/api/orders.php:12-42 | the listing is always 200; an admin asking with `admin` sees every order with an existing user, and anyone else sees exactly their own orders with their items |
| Orders.AdminListing | backend/api/orders.php:13-23 | the admin listing is a newest-first permutation of the joined rows |
| Orders.OwnListing | backend/api/orders.php:25-41 | the caller's listing is a newest-first permutation of exactly their orders, each carrying its items |
| Orders.OrdersOf | backend/api/orders.php:25-41 | one order per listing row |
| Orders.HandleOrders | backend/api/orders.php:1-136 | a missing or bad token gives 401 with nothing changed; only POST and PUT change the database; users and products are never touched |
| Cart.CountZeroNone | backend/api/cart.php:33-42 | no line for a user and product means no quantity for them |
| Cart.UpdateLine | backend/api/cart.php:36-42 | overwriting one line's quantity changes that pair's total by the difference and keeps its line count |
| Cart.UpdateLineOthers | backend/api/cart.php:36-42 | overwriting one line leaves every other user and product pair as it was |
| Cart.AppendLine | backend/api/cart.php:43-47 | appending a line adds one line and its quantity to its own pair, and nothing to any other |
| Cart.FindLine | backend/api/cart.php:33-35 | the lookup finds the first line of the caller for the product, or reports that there is none |
| Cart.CartEntries | backend/api/cart.php:10-20 | the listing shows exactly the caller's lines whose product exists, with that product's name, price and image |
| Cart.AddToCart | backend/api/cart.php:21-49 | no product id: 400; a failed write is uncaught (500); otherwise the caller's quantity for the product grows by the given amount, a new line appears only if none existed, and every other pair is unchanged |
| Cart.SetQuantity | backend/api/cart.php:50-64 | no product id: 400; a failed write: 500; otherwise the caller's lines for the product take the new quantity and every other line is unchanged |
| Cart.RemoveFromCart | backend/api/cart.php:65-77 | no product id: 400; a failed write: 500; otherwise exactly the caller's lines for the product are gone, the rest keep their order |
| Cart.HandleCart | backend/api/cart.php:1-83 | a missing or bad token gives 401 with nothing changed; only the cart and the counter can change; GET answers 200 with the caller's cart lines joined to their products, changes nothing, and lists no other user's line; other verbs give 405 |
| Products.Stored | backend/api/products.php:50-57 | the stored row carries the submitted fields, converted to their column types |
| Products.ReadCatalog | backend/api/products.php:9-27 | with an id: the product when it exists, else 404 "Product not found"; without one: every product, newest first |
| Products.CreateProduct | backend/api/products.php:28-57 | missing name, price or stock: 400; a failed insert: 400; otherwise exactly one product is appended, carrying the submitted fields and a non-empty name |
| Products.UpdateProduct | backend/api/products.php:58-87 | no id: 400; a failed update: 400; otherwise exactly the products with that id take the new fields and keep their creation time |
| Products.DeleteProduct | backend/api/products.php:88-110 | no id: 400; a failed delete: 400; otherwise exactly the products with that id are removed and the rest keep their order |
| Products.AdminWrite | backend/api/products.php:28-110 | writes need a valid token (401) and the admin role (403) before the request is looked at |
| Products.HandleProducts | backend/api/products.php:1-116 | GET is the catalog read and changes nothing; only products and the counter can change, and only through an admin write; other verbs give 405 |
| Products.CreatedIsFound | backend/api/products.php:50-57 | a created product can be looked up by its new id |
| Products.FindAppended | backend/api/products.php:50-57 | a product appended under a fresh id is what the lookup of that id returns |
| Products.UpdatedIsFound | backend/api/products.php:74-86 | after an update, the product found under that id has the new fields and its original creation time |
| Products.FindUpdated | backend/api/products.php:74-86 | rewriting exactly the rows with one id changes what the lookup of that id returns, and nothing more |
| Products.DeletedIsGone | backend/api/products.php:96-109 | after a delete, no product has that id |
| Products.ZeroStockRejected | backend/api/products.php:39-48 | a new product with stock 0 is refused as incomplete, because `empty(0)` holds |
| Accounts.FindByEmail | backend/api/auth.php:23-26 | the lookup returns a user with that email, or reports that there is none |
| Accounts.Register | backend/api/auth.php:12-37 | a missing name, email or password gives 400; a taken email or a failed insert gives 400 "Email already exists"; otherwise exactly one user is appended with the hashed password and the default role, and a token for the new user is returned |
| Accounts.Login | backend/api/auth.php:38-76 | a missing field gives 400; an unknown email gives 401 "User not found"; a wrong password gives 401 "Invalid password"; otherwise 200 with a token for the stored user |
| Accounts.HandleAuth | backend/api/auth.php:1-138 | the action routes POST to register, login or logout, and anything else to 400 "Invalid action"; GET test/debug is a diagnostic; every other request gives 405; only register changes the database |
| Accounts.RegisterKeepsEmailsUnique | backend/api/auth.php:23-32 | registration never creates a second user with the same email |
| Accounts.LoginAfterRegister | backend/api/auth.php:12-76 | right after registering, logging in with the same email and password succeeds and returns the new user |
| Accounts.FindAppendedEmail | backend/api/auth.php:23-32 | a user appended under a new email is what the lookup returns |
| Accounts.LoginTokenAuthenticates | backend/api/auth.php:57-69 | the token from a successful login authenticates the logged-in user for the next 24 hours |
| Users.Listed | backend/api/users.php:15-19 | the listing shows each user's id, name, email, role and creation time, and never the password hash |
| Users.HandleUsers | backend/api/users.php:1-25 | a token failure is returned as is; a non-admin gets 403; a 200 is a GET by an admin, listing every user newest first; an admin using another verb gets 405 |
| CatalogView.EmptySearchMatches | src/pages/Home.js:41 | an empty search term matches every product, which is why the code skips the filter then |
| CatalogView.BySearch | src/pages/Home.js:41-46 | the search keeps exactly the products whose name or description contains the term, ignoring case, in catalog order |
| CatalogView.ByCategory | src/pages/Home.js:49-51 | the category filter keeps exactly the products of the selected category, in catalog order |
| CatalogView.Comparator | src/pages/Home.js:74-87 | "price-low" orders by price, "price-high" and "newest" by price and creation time reversed, "name" defers to the collation, and any other choice calls every pair equal |
| CatalogView.BandBoundaries | src/pages/Home.js:54-71 | every price falls in some band; the 25-50 and 50-100 bands share exactly the price 50.00; under-25 and 25-50 share nothing, nor do 50-100 and over-100; an unknown band keeps every price |
| CatalogView.ByPrice | src/pages/Home.js:54-71 | the price filter keeps exactly the products in the chosen band, in catalog order |
| CatalogView.Filtered | src/pages/Home.js:38-71 | the chained filters keep exactly the products that pass all three, in catalog order |
| CatalogView.Arranged | src/pages/Home.js:37-89 | the shown list is a reordering of exactly the products that pass the filters |
| CatalogView.PriceLowAscending | src/pages/Home.js:76-77 | "price-low" orders the list by ascending price |
| CatalogView.PriceHighDescending | src/pages/Home.js:78-79 | "price-high" orders the list by descending price |
| CatalogView.NewestFirst | src/pages/Home.js:82-83 | "newest" orders the list by descending creation time |
| CatalogView.UnknownSortKeepsOrder | src/pages/Home.js:84-85 | an unknown sort key keeps the filtered order |
| CatalogView.BandsCoverAllPrices | src/pages/Home.js:56-66 | every price falls in some band; $50 falls in two bands; $25 is not "under-25" |
| CatalogView.CategoryEmptiesCatalog | src/pages/Home.js:49-51 | choosing any category empties a catalog whose products carry no category |
| CatalogView.PageCount | src/pages/Home.js:117 | the page count is the least number of 12-product pages that covers the list |
| CatalogView.SliceBound | src/pages/Home.js:119 | a slice index is clamped into the list |
| CatalogView.JsSlice | src/pages/Home.js:119 | a slice is never longer than the list |
| CatalogView.PageContents | src/pages/Home.js:118-119 | a page holds at most 12 products, and page p holds the products at positions 12(p-1) to 12p-1 |
| CatalogView.PagesPrefix | src/pages/Home.js:117-119 | the first k pages together are the list's first 12k products |
| CatalogView.PagesCoverList | src/pages/Home.js:117-119 | the pages shown by the pager together are the whole list, in order |
| CatalogView.Step | src/pages/Home.js:37-91 | the shown list stays the arranged catalog; choosing a page changes only the page; a change of products or criteria goes back to page 1; re-selecting the same criteria changes nothing |
| CatalogView.AlwaysConsistent | src/pages/Home.js:37-91 | after any sequence of loads, criteria changes and page choices, the shown list is the catalog filtered and sorted by the current criteria |
| RegisterForm.LiveStep | src/pages/Register.js:71 | reading one more character extends the partial matches of `\S+@\S+\.\S+` |
| RegisterForm.TestEmail | src/pages/Register.js:71 | the scan accepts exactly the strings with some non-space run, '@', non-space run, '.', non-space run |
| RegisterForm.NameError | src/pages/Register.js:63-67 | no name error exactly when the trimmed name has at least two UTF-16 units |
| RegisterForm.EmailError | src/pages/Register.js:69-73 | no email error exactly when the address has the shape the pattern requires |
| RegisterForm.PasswordError | src/pages/Register.js:75-79 | no password error exactly when the password has at least six UTF-16 units |
| RegisterForm.ConfirmError | src/pages/Register.js:81-85 | no confirmation error exactly when the confirmation is non-empty and equal to the password |
| RegisterForm.Validate | src/pages/Register.js:60-89 | each field gets its own check, and the form passes exactly when no field has an error |
| RegisterForm.Submission | src/pages/Register.js:102-103 | the body sent is exactly name, email and password, without the confirmation |
| RegisterForm.TrimKeepsZero | src/pages/Register.js:63 | the name "0" survives trimming as "0" |
| RegisterForm.AcceptedFormHasAllFields | src/pages/Register.js:87-103 | a form that passes sends a name, email and password that PHP does not call empty |
| RegisterForm.AcceptedFormRegisters | src/pages/Register.js:87-103 | the server never answers "All fields are required" to a form that passes |
| ProductDetail.Decrement | src/components/ProductDetail.js:112 | "-" never goes below 1 and lowers a quantity above 1 by one |
| ProductDetail.Increment | src/components/ProductDetail.js:126 | "+" never goes above the stock and raises a quantity below the stock by one |
| ProductDetail.Typed | src/components/ProductDetail.js:120 | a typed quantity is at least 1, and at most the stock when there is stock; text that does not parse, or parses to 0, gives 1; a number above the stock gives the stock |
| ProductDetail.TypedInRangeKept | src/components/ProductDetail.js:120 | typing a number between 1 and the stock gives that number |
| ProductDetail.StockLabel | src/components/ProductDetail.js:101-103 | the badge says "In Stock" exactly above 10, "Out of Stock" exactly at or below 0, and "Only N left" in between |
| ProductDetail.LowStockNamesCount | src/components/ProductDetail.js:102 | the number in the low-stock badge reads back as the exact stock |
| ProductDetail.ButtonAgreesWithBadge | src/components/ProductDetail.js:101-137 | the add button is enabled exactly when the badge does not say "Out of Stock" |
| ProductDetail.QuantityStaysInRange | src/components/ProductDetail.js:112-126 | starting between 1 and the stock, any sequence of "-", "+" and typed inputs keeps the quantity between 1 and the stock |
| ProductDetail.PlusAtStock | src/components/ProductDetail.js:126 | at or above the stock, "+" sets the quantity to the stock, which is 0 when nothing is in stock |
| Backend.ItemsOf | backend/api/orders.php:84-87 | an order's items are items of the database that belong to that order |
| Backend.ItemsOfConcat | backend/api/orders.php:84-87 | the items of an order in two tables are the items in each table |
| Backend.ItemsOfNone | backend/api/orders.php:79-87 | a table with no item for an order gives that order no items |
| Backend.ItemsOfAll | backend/api/orders.php:84-87 | a table whose items all belong to an order gives that order all of them |
| Backend.SubsequenceMembers | backend/api/cart.php:65-77 | deleting rows only keeps rows that were there |
| Backend.SubsequenceUnique | backend/api/cart.php:65-77 | deleting cart rows keeps a user's lines distinct per product |
| Backend.AddKeepsUnique | backend/api/cart.php:33-47 | adding to the cart keeps at most one line per user and product |
| Backend.SetKeepsUnique | backend/api/cart.php:50-64 | setting a quantity keeps at most one line per user and product |
| Backend.RemoveKeepsUnique | backend/api/cart.php:65-77 | removing keeps at most one line per user and product |
| Backend.AddTwiceOneLine | backend/api/cart.php:33-47 | adding the same product twice leaves one line whose quantity is the sum of the two amounts |
| Backend.AppendKeepsTotals | backend/api/orders.php:70-87 | appending an order with its own items keeps every total equal to its items' sum |
| Backend.PlaceKeepsTotals | backend/api/orders.php:70-99 | placing an order keeps every order's total equal to the sum of its items |
| Backend.StatusKeepsTotals | backend/api/orders.php:123-126 | a status update keeps every order's total equal to the sum of its items |
| Backend.PlaceKeepsFresh | backend/api/orders.php:77-91 | placing an order keeps every id below the counter |
| Backend.ProductsKeepFresh | backend/api/products.php:50-110 | product writes keep every id below the counter |
| Backend.RegisterKeepsFresh | backend/api/auth.php:28-32 | registration keeps every id below the counter |
| Backend.AddKeepsFresh | backend/api/cart.php:21-49 | adding to the cart keeps every id below the counter |
| Backend.SetKeepsFresh | backend/api/cart.php:50-64 | setting a quantity keeps every id below the counter |
| Backend.CartKeepsFresh | backend/api/cart.php:21-77 | cart writes keep every id below the counter |
| Backend.AuthKeepsHealthy | backend/api/auth.php:1-138 | the auth endpoint keeps the database invariant |
| Backend.ProductsKeepHealthy | backend/api/products.php:1-116 | the products endpoint keeps the database invariant |
| Backend.CartKeepsHealthy | backend/api/cart.php:1-83 | the cart endpoint keeps the database invariant |
| Backend.PlaceKeepsHealthy | backend/api/orders.php:43-99 | placing an order keeps the database invariant, including one cart line per user and product after the caller's lines are deleted |
| Backend.StatusKeepsHealthy | backend/api/orders.php:100-130 | a status update keeps the database invariant |
| Backend.OrdersKeepHealthy | backend/api/orders.php:1-136 | the orders endpoint keeps the database invariant |
| Backend.Serve | backend/index.php:12-21 | a request answered with anything but 200 leaves every table as it was, and a GET never writes, on every endpoint |
| Backend.ServeKeepsHealthy | backend/index.php:12-21 | every request to any endpoint keeps the database invariant: fresh ids, one cart line per user and product, unique emails, and totals that match their items |

## Left out

- HTTP plumbing is not modelled: CORS headers, the OPTIONS short-circuit, the 404 "Not found" for an unknown URI (backend/index.php:22-25) and `getallheaders()`. The request is a record of verb, query, body and Authorization header.
- The GET `test` and `debug` actions of `auth.php` (lines 84-132) are not modelled. They print database diagnostics, and their answer is the opaque `Diagnostic` body.
- The token format is simplified.
  - `base64_encode(json_encode(...))` is replaced by a text codec that round-trips and contains no space, which are the two properties the guard relies on.
  - The byte-level base64 and JSON formats are not modelled, and neither is a token forged from outside that codec.
- `password_hash` and `password_verify` are uninterpreted functions of `Store.Externals`. Only their agreement is assumed, as a requirement of `Accounts.LoginAfterRegister`.
- PHP's conversion of JSON values to INT and DECIMAL columns is not modelled: it is the `intColumn` and `priceColumn` parameters. Neither is MySQL's case-insensitive email collation.
- Auto-increment ids are simplified.
  - One shared counter replaces MySQL's per-table counters.
  - A failed write does not consume an id.
  - `lastInsertId` returns a string in PHP; the model returns a number.
- Login's 500 "Database error" path (a failing SELECT) is not modelled. Reads never fail in the model.
- Concurrency is not modelled. This covers, for example, a price change between the cart join and the order insert.
- Floating point is not modelled. Prices are integer cents.
  - Tax, shipping and `toFixed` in the client are left out.
  - A price is compared with the dollar thresholds as cents.
- Requests the client sends, the fetch in `Home.js` (lines 20-31), and the React rendering are not modelled. Only the state the page keeps is.
- `Php.Empty`: request values are JSON scalars. Arrays, objects and floats other than prices are not modelled in a body, so `empty([])` and `empty(0.0)` are not covered. A field holding an array, such as `{"status": ["x"]}`, cannot be expressed.
- `Cart.AddToCart`: for a product already in the cart, the handler adds the raw request quantity to the stored one in PHP (backend/api/cart.php:39), and the column converts the sum. The model converts the quantity first, then adds. PHP 8 throws a TypeError (an uncaught 500, cart unchanged) when that quantity is a non-numeric string such as "" or "abc". The model does not reproduce this and answers 200. The shipped clients always send a number (src/pages/Home.js:104, src/components/ProductDetail.js:33).
- `Orders.UpdateStatus`: any non-empty status string is stored, and an id that matches no order still gives 200. The handler does not check the four statuses the admin dashboard offers (src/components/AdminDashboard.js:429-432) or answer 404, and the model follows it.
- `Products.UpdateProduct` and `Products.DeleteProduct`: an id that matches no product still gives 200, as in the handler. There is no 404.
- `Orders.PlaceOrder`: the shipping address is checked but not stored, because the insert at line 80 has no column for it.
- `Accounts.Register`: the token's role is the literal "user" (line 30), while the stored row takes the column default. The two agree only when that default is "user".
- `Text.Lower`: only ASCII letters are lower-cased. JavaScript's full Unicode case mapping is not modelled.
- `Text.JsParseInt` reads decimal digits only. The hexadecimal prefix and other radixes are not modelled, since the input field is a number field.
- `CatalogView.Comparator`: the "name" order uses `localeCompare`, which is a parameter (`collate`). Beyond deferring to it, no property of that order is claimed.
- `CatalogView.AlwaysConsistent`: the shown list is modelled as recomputed on every change. React's batching of the two state updates at lines 89-90 is not modelled.

=== FILE: accounts.dfy ===
/** backend/api/auth.php: registration, login and logout, selected by the
    `?action` query parameter. Both register and login answer with a fresh
    token and the user it names. */
module Accounts {
  import opened Wrappers
  import opened Php
  import opened Store
  import AuthGuard
  import TokenCodec

  function Action(query: map<string, string>): string {
    if "action" in query then query["action"] else ""
  }

  /** `SELECT ... FROM users WHERE email = ?` fetched once: the first user
      with exactly that address. */
  function FindByEmail(users: seq<User>, email: string): (r: Option<User>)
    ensures r.Some? ==> r.value in users && r.value.email == email
    ensures r.None? <==> forall u :: u in users ==> u.email != email
  {
    if |users| == 0 then None
    else if users[0].email == email then Some(users[0])
    else
      var r := FindByEmail(users[1..], email);
      assert forall u :: u in users <==> u == users[0] || u in users[1..];
      r
  }

  /** No two users share an address: the UNIQUE key on `users.email`. */
  ghost predicate EmailsUnique(users: seq<User>) {
    forall i, j :: 0 <= i < j < |users| ==> users[i].email != users[j].email
  }

  /** The user array a registration answers with; its role is the literal
      "user", not the column default the row receives. */
  function Registered(id: nat, name: Json, email: Json): TokenCodec.Claim {
    TokenCodec.Claim(id, ToText(name), ToText(email), "user")
  }

  /** POST ?action=register. The insert fails on a taken address (the
      UNIQUE key) as on any other database error, and both are reported as
      a taken address. */
  function Register(db: Db, ext: Externals, env: Env, body: map<string, Json>): (out: (Db, Response))
    ensures
      var name := Field(body, "name", JStr(""));
      var email := Field(body, "email", JStr(""));
      var password := Field(body, "password", JStr(""));
      && (Empty(name) || Empty(email) || Empty(password) ==> out == (db, Respond(400, "All fields are required")))
      && (!Empty(name) && !Empty(email) && !Empty(password) && (env.writeFails || FindByEmail(db.users, ToText(email)).Some?) ==>
            out == (db, Respond(400, "Email already exists")))
      && (out.1.code == 200 <==>
            !Empty(name) && !Empty(email) && !Empty(password) && !env.writeFails
            && FindByEmail(db.users, ToText(email)).None?)
      && (out.1.code != 200 ==> out.0 == db)
      && (out.1.code == 200 ==>
            var claim := Registered(db.nextId, name, email);
            && out.1 == Response(200, Session(AuthGuard.IssueToken(claim, env.now), claim, None))
            && out.0 == db.(users := out.0.users, nextId := db.nextId + 1)
            && |out.0.users| == |db.users| + 1 && out.0.users[..|db.users|] == db.users
            && out.0.users[|db.users|] ==
                 User(db.nextId, ToText(name), ToText(email), ext.hash(ToText(password), env.salt), ext.defaultRole, env.now))
  {
    var name := Field(body, "name", JStr(""));
    var email := Field(body, "email", JStr(""));
    var password := Field(body, "password", JStr(""));
    if Empty(name) || Empty(email) || Empty(password) then (db, Respond(400, "All fields are required"))
    else if env.writeFails || FindByEmail(db.users, ToText(email)).Some? then (db, Respond(400, "Email already exists"))
    else
      var row := User(db.nextId, ToText(name), ToText(email), ext.hash(ToText(password), env.salt), ext.defaultRole, env.now);
      var claim := Registered(db.nextId, name, email);
      (db.(users := db.users + [row], nextId := db.nextId + 1),
       Response(200, Session(AuthGuard.IssueToken(claim, env.now), claim, None)))
  }

  /** POST ?action=login: the first user with the address, checked against
      the stored hash. */
  function Login(db: Db, ext: Externals, env: Env, body: map<string, Json>): (r: Response)
    ensures
      var email := Field(body, "email", JStr(""));
      var password := Field(body, "password", JStr(""));
      && (Empty(email) || Empty(password) ==> r == Respond(400, "Email and password are required"))
      && (!Empty(email) && !Empty(password) && FindByEmail(db.users, ToText(email)).None? ==> r == Respond(401, "User not found"))
      && (!Empty(email) && !Empty(password) && FindByEmail(db.users, ToText(email)).Some?
          && !ext.verify(ToText(password), FindByEmail(db.users, ToText(email)).value.passwordHash) ==>
            r == Respond(401, "Invalid password"))
      && (r.code == 200 <==>
            && !Empty(email) && !Empty(password)
            && FindByEmail(db.users, ToText(email)).Some?
            && ext.verify(ToText(password), FindByEmail(db.users, ToText(email)).value.passwordHash))
      && (r.code == 200 ==>
            var u := FindByEmail(db.users, ToText(email)).value;
            var claim := TokenCodec.Claim(u.id, u.name, u.email, u.role);
            r == Response(200, Session(AuthGuard.IssueToken(claim, env.now), claim, Some("Login successful"))))
      && (r.code != 200 ==> r.body.Msg?)
  {
    var email := Field(body, "email", JStr(""));
    var password := Field(body, "password", JStr(""));
    if Empty(email) || Empty(password) then Respond(400, "Email and password are required")
    else
      match FindByEmail(db.users, ToText(email))
      case None => Respond(401, "User not found")
      case Some(u) =>
        if ext.verify(ToText(password), u.passwordHash) then
          var claim := TokenCodec.Claim(u.id, u.name, u.email, u.role);
          Response(200, Session(AuthGuard.IssueToken(claim, env.now), claim, Some("Login successful")))
        else Respond(401, "Invalid password")
  }

  /** The request handler. Logout is stateless: the token stays valid until
      it expires. The two GET diagnostics are not modelled beyond their
      existence. */
  function HandleAuth(db: Db, ext: Externals, env: Env, req: Request): (out: (Db, Response))
    ensures req.verb == POST && Action(req.query) == "register" ==> out == Register(db, ext, env, req.body)
    ensures req.verb == POST && Action(req.query) == "login" ==> out == (db, Login(db, ext, env, req.body))
    ensures req.verb == POST && Action(req.query) == "logout" ==> out == (db, Respond(200, "Logged out"))
    ensures req.verb == POST && Action(req.query) !in {"register", "login", "logout"} ==> out == (db, Respond(400, "Invalid action"))
    ensures req.verb == GET && Action(req.query) in {"test", "debug"} ==> out == (db, Response(200, Diagnostic))
    ensures req.verb != POST && !(req.verb == GET && Action(req.query) in {"test", "debug"}) ==> out == (db, MethodNotAllowed)
    ensures out.0 != db ==> req.verb == POST && Action(req.query) == "register"
    ensures out.0 == db.(users := out.0.users, nextId := out.0.nextId)
  {
    var action := Action(req.query);
    if req.verb == POST then
      if action == "register" then Register(db, ext, env, req.body)
      else if action == "login" then (db, Login(db, ext, env, req.body))
      else if action == "logout" then (db, Respond(200, "Logged out"))
      else (db, Respond(400, "Invalid action"))
    else if req.verb == GET && (action == "test" || action == "debug") then (db, Response(200, Diagnostic))
    else (db, MethodNotAllowed)
  }

  /** Registration keeps addresses unique. */
  lemma RegisterKeepsEmailsUnique(db: Db, ext: Externals, env: Env, body: map<string, Json>)
    requires EmailsUnique(db.users)
    ensures EmailsUnique(Register(db, ext, env, body).0.users)
  {
    var out := Register(db, ext, env, body);
    if out.1.code == 200 {
      var email := ToText(Field(body, "email", JStr("")));
      assert forall u :: u in db.users ==> u.email != email;
      assert forall i :: 0 <= i < |db.users| ==> db.users[i] in db.users;
    }
  }

  /** Whoever has just registered (all three fields present, the address
      free, the insert accepted) can log in with the same address and
      password, provided the password check accepts what the hash produced;
      the login names the new row, whose role is the column default. */
  lemma LoginAfterRegister(db: Db, ext: Externals, env: Env, env2: Env, body: map<string, Json>)
    requires !Empty(Field(body, "name", JStr(""))) && !Empty(Field(body, "email", JStr(""))) && !Empty(Field(body, "password", JStr("")))
    requires !env.writeFails && FindByEmail(db.users, ToText(Field(body, "email", JStr("")))).None?
    requires var p := ToText(Field(body, "password", JStr(""))); ext.verify(p, ext.hash(p, env.salt))
    ensures var db' := Register(db, ext, env, body).0;
      && Login(db', ext, env2, body).code == 200
      && Login(db', ext, env2, body).body.user ==
           TokenCodec.Claim(db.nextId, ToText(Field(body, "name", JStr(""))), ToText(Field(body, "email", JStr(""))), ext.defaultRole)
  {
    var db' := Register(db, ext, env, body).0;
    var email := ToText(Field(body, "email", JStr("")));
    FindAppendedEmail(db.users, db'.users[|db.users|], email);
    assert db'.users == db.users + [db'.users[|db.users|]];
  }

  lemma {:induction false} FindAppendedEmail(users: seq<User>, u: User, email: string)
    requires u.email == email && forall v :: v in users ==> v.email != email
    ensures FindByEmail(users + [u], email) == Some(u)
  {
    if |users| > 0 {
      assert (users + [u])[1..] == users[1..] + [u];
      FindAppendedEmail(users[1..], u, email);
    } else {
      assert users + [u] == [u];
    }
  }

  /** A token from a successful login (address known, password accepted)
      authenticates its holder as the logged-in user for 24 hours. */
  lemma LoginTokenAuthenticates(db: Db, ext: Externals, env: Env, body: map<string, Json>, now: int)
    requires !Empty(Field(body, "email", JStr(""))) && !Empty(Field(body, "password", JStr("")))
    requires FindByEmail(db.users, ToText(Field(body, "email", JStr("")))).Some?
    requires ext.verify(ToText(Field(body, "password", JStr(""))), FindByEmail(db.users, ToText(Field(body, "email", JStr("")))).value.passwordHash)
    requires now <= env.now + AuthGuard.TokenLifetime
    ensures var s := Login(db, ext, env, body).body;
      AuthGuard.Authenticate(Some(AuthGuard.BearerPrefix + s.token), now) == Success(s.user)
  {
    var s := Login(db, ext, env, body).body;
    AuthGuard.IssuedTokenRoundTrip(s.user, env.now, now);
  }
}

=== FILE: auth_guard.dfy ===
/** `authenticate()` and `generateToken()` of backend/config/db.php: the
    decision over header presence, payload shape and expiry, and the
    payload a freshly issued token carries. */
module AuthGuard {
  import opened Wrappers
  import Text
  import TokenCodec
  import opened Store

  const BearerPrefix := "Bearer "

  /** 24 * 60 * 60 seconds. */
  const TokenLifetime := 86400

  /** `str_replace('Bearer ', '', $header)`. */
  function TokenText(header: string): string {
    Text.RemoveAll(header, BearerPrefix)
  }

  /** The caller's identity, or the 401 response that ends the request. */
  function Authenticate(authorization: Option<string>, now: int): (r: Result<TokenCodec.Claim, Response>)
    ensures r.Failure? ==> r.error.code == 401
    ensures authorization.None? ==> r == Failure(Respond(401, "No token provided"))
    ensures r.Success? ==>
      && authorization.Some?
      && TokenCodec.Decode(TokenText(authorization.value)).Some?
      && TokenCodec.Decode(TokenText(authorization.value)).value.user == Some(r.value)
  {
    match authorization
    case None => Failure(Respond(401, "No token provided"))
    case Some(header) =>
      match TokenCodec.Decode(TokenText(header))
      case None => Failure(Respond(401, "Invalid token"))
      case Some(p) =>
        if p.user.None? then Failure(Respond(401, "Invalid token"))
        else if p.exp.Some? && p.exp.value < now then Failure(Respond(401, "Token expired"))
        else Success(p.user.value)
  }

  /** The payload of `generateToken($user)` at time `now`. */
  function GenerateToken(user: TokenCodec.Claim, now: int): (p: TokenCodec.Payload)
    ensures p.user == Some(user) && p.iat == Some(now)
    ensures p.exp.Some? && p.exp.value - now == 24 * 60 * 60
  {
    TokenCodec.Payload(Some(user), Some(now), Some(now + TokenLifetime))
  }

  /** The token text handed back to the client. */
  function IssueToken(user: TokenCodec.Claim, now: int): string {
    TokenCodec.Encode(GenerateToken(user, now))
  }

  /** A header whose token text does not decode to a payload with a user is
      refused as an invalid token. */
  lemma MalformedRejected(header: string, now: int)
    requires TokenCodec.Decode(TokenText(header)).None?
          || TokenCodec.Decode(TokenText(header)).value.user.None?
    ensures Authenticate(Some(header), now) == Failure(Respond(401, "Invalid token"))
  {}

  lemma {:induction false} SpaceFreeHasNoPrefix(t: string)
    requires ' ' !in t
    ensures forall i :: !Text.OccursAt(t, BearerPrefix, i)
  {
    forall i ensures !Text.OccursAt(t, BearerPrefix, i) {
      if 0 <= i && i + |BearerPrefix| <= |t| {
        assert t[i..i + |BearerPrefix|][6] == t[i + 6];
        assert t[i + 6] in t;
      }
    }
  }

  /** The header "Bearer " + token yields exactly the token's text. */
  lemma BearerStripped(t: string)
    requires ' ' !in t
    ensures TokenText(BearerPrefix + t) == t
  {
    SpaceFreeHasNoPrefix(t);
    Text.RemoveAllAbsent(t, BearerPrefix);
    Text.RemoveAllSplits([], t, BearerPrefix);
    assert [] + BearerPrefix + t == BearerPrefix + t;
  }

  /** Every occurrence of "Bearer " is removed, not only a leading one:
      a repeated prefix goes too. */
  lemma RepeatedPrefixStripped(t: string)
    requires ' ' !in t
    ensures TokenText(BearerPrefix + BearerPrefix + t) == t
  {
    BearerStripped(t);
    Text.RemoveAllSplits([], BearerPrefix + t, BearerPrefix);
    assert [] + BearerPrefix + (BearerPrefix + t) == BearerPrefix + BearerPrefix + t;
  }

  /** A trailing "Bearer " is removed as well. */
  lemma TrailingPrefixStripped(t: string)
    requires ' ' !in t
    ensures TokenText(BearerPrefix + t + BearerPrefix) == t
  {
    NoOccurrenceInside(t);
    SpaceFreeHasNoPrefix(t);
    Text.RemoveAllAbsent(t, BearerPrefix);
    Text.RemoveAllSplits(t, [], BearerPrefix);
    assert t + BearerPrefix + [] == t + BearerPrefix;
    assert Text.RemoveAll([], BearerPrefix) == [];
    Text.RemoveAllSplits([], t + BearerPrefix, BearerPrefix);
    assert [] + BearerPrefix + (t + BearerPrefix) == BearerPrefix + t + BearerPrefix;
  }

  lemma NoOccurrenceInside(t: string)
    requires ' ' !in t
    ensures forall i :: 0 <= i < |t| ==> !Text.OccursAt(t + BearerPrefix + [], BearerPrefix, i)
  {
    forall i | 0 <= i < |t| ensures !Text.OccursAt(t + BearerPrefix + [], BearerPrefix, i) {
      var s := t + BearerPrefix + [];
      if i + |BearerPrefix| <= |s| {
        assert s[i..i + |BearerPrefix|][6] == s[i + 6];
        if i + 6 < |t| {
          assert s[i + 6] == t[i + 6] && t[i + 6] in t;
        } else {
          assert s[i + 6] == BearerPrefix[i + 6 - |t|];
        }
      }
    }
  }

  /** What the guard makes of any payload presented as "Bearer " + its
      encoding: no user is an invalid token, an expiry strictly before `now`
      is expired, and otherwise the payload's user is the caller. A payload
      without an expiry never expires, and nothing checks who produced the
      token. */
  lemma AuthenticateEncoded(p: TokenCodec.Payload, now: int)
    ensures Authenticate(Some(BearerPrefix + TokenCodec.Encode(p)), now) ==
      if p.user.None? then Failure(Respond(401, "Invalid token"))
      else if p.exp.Some? && p.exp.value < now then Failure(Respond(401, "Token expired"))
      else Success(p.user.value)
  {
    TokenCodec.SpaceFree(p);
    BearerStripped(TokenCodec.Encode(p));
    TokenCodec.RoundTrip(p);
  }

  /** A token issued at time `t` authenticates its user up to and including
      `t` + 24 hours, and is refused as expired afterwards. */
  lemma IssuedTokenRoundTrip(user: TokenCodec.Claim, t: int, now: int)
    ensures now <= t + TokenLifetime ==>
      Authenticate(Some(BearerPrefix + IssueToken(user, t)), now) == Success(user)
    ensures now > t + TokenLifetime ==>
      Authenticate(Some(BearerPrefix + IssueToken(user, t)), now) == Failure(Respond(401, "Token expired"))
  {
    AuthenticateEncoded(GenerateToken(user, t), now);
  }
}

=== FILE: backend.dfy ===
/** The five endpoints behind one dispatcher, and the facts that hold of
    the tables across every request: ids stay fresh, a cart holds one line
    per product, addresses stay unique, every order's total is the sum of
    its items, and a request that does not succeed changes nothing. */
module Backend {
  import opened Wrappers
  import Seqs
  import opened Store
  import AuthGuard
  import Orders
  import Cart
  import Products
  import Accounts
  import Users
  import Php
  import TokenCodec

  datatype Endpoint = AuthApi | ProductsApi | CartApi | OrdersApi | UsersApi

  /** One request to one endpoint. A request answered with anything but 200
      leaves every table as it was, and reading never writes. */
  function Serve(db: Db, ext: Externals, env: Env, ep: Endpoint, req: Request): (out: (Db, Response))
    ensures out.1.code != 200 ==> out.0 == db
    ensures req.verb == GET ==> out.0 == db
  {
    match ep
    case AuthApi => Accounts.HandleAuth(db, ext, env, req)
    case ProductsApi => Products.HandleProducts(db, ext, env, req)
    case CartApi => Cart.HandleCart(db, ext, env, req)
    case OrdersApi => Orders.HandleOrders(db, ext, env, req)
    case UsersApi => (db, Users.HandleUsers(db, env, req))
  }

  /** The items that belong to one order. */
  function ItemsOf(items: seq<OrderItem>, orderId: int): (r: seq<OrderItem>)
    ensures forall it :: it in r ==> it in items && it.orderId == orderId
  {
    if |items| == 0 then []
    else (if items[0].orderId == orderId then [items[0]] else []) + ItemsOf(items[1..], orderId)
  }

  lemma {:induction false} ItemsOfConcat(a: seq<OrderItem>, b: seq<OrderItem>, orderId: int)
    ensures ItemsOf(a + b, orderId) == ItemsOf(a, orderId) + ItemsOf(b, orderId)
  {
    if |a| > 0 {
      assert (a + b)[1..] == a[1..] + b;
      ItemsOfConcat(a[1..], b, orderId);
    } else {
      assert a + b == b;
    }
  }

  lemma {:induction false} ItemsOfNone(items: seq<OrderItem>, orderId: int)
    requires forall it :: it in items ==> it.orderId != orderId
    ensures ItemsOf(items, orderId) == []
  {
    if |items| > 0 {
      assert items[0] in items;
      ItemsOfNone(items[1..], orderId);
    }
  }

  lemma {:induction false} ItemsOfAll(items: seq<OrderItem>, orderId: int)
    requires forall k :: 0 <= k < |items| ==> items[k].orderId == orderId
    ensures ItemsOf(items, orderId) == items
  {
    if |items| > 0 {
      ItemsOfAll(items[1..], orderId);
    }
  }

  /** Every order's stored total equals the sum over its items. */
  ghost predicate TotalsConsistent(db: Db) {
    forall o :: o in db.orders ==> o.total == Orders.ItemsTotal(ItemsOf(db.items, o.id))
  }

  ghost predicate Healthy(db: Db) {
    Fresh(db) && CartUnique(db.cart) && Accounts.EmailsUnique(db.users) && TotalsConsistent(db)
  }

  // ----- Cart uniqueness -----

  lemma {:induction false} SubsequenceMembers<T>(a: seq<T>, b: seq<T>)
    requires Seqs.IsSubsequence(a, b)
    ensures forall x :: x in a ==> x in b
    decreases |b|
  {
    if |a| > 0 {
      if a[0] == b[0] {
        SubsequenceMembers(a[1..], b[1..]);
        assert forall x :: x in a ==> x == a[0] || x in a[1..];
      } else {
        SubsequenceMembers(a, b[1..]);
      }
    }
  }

  /** Deleting lines keeps a cart unique. */
  lemma {:induction false} SubsequenceUnique(a: seq<CartLine>, b: seq<CartLine>)
    requires Seqs.IsSubsequence(a, b) && CartUnique(b)
    ensures CartUnique(a)
    decreases |b|
  {
    if |a| > 0 {
      if a[0] == b[0] {
        assert CartUnique(b[1..]);
        SubsequenceUnique(a[1..], b[1..]);
        SubsequenceMembers(a[1..], b[1..]);
        forall j | 0 < j < |a| ensures a[0].userId != a[j].userId || a[0].productId != a[j].productId {
          assert a[j] == a[1..][j - 1];
          assert a[j] in b[1..];
          var m :| 0 <= m < |b[1..]| && b[1..][m] == a[j];
          assert b[m + 1] == a[j];
        }
        forall i, j | 0 <= i < j < |a| ensures a[i].userId != a[j].userId || a[i].productId != a[j].productId {
          if i > 0 {
            assert a[i] == a[1..][i - 1] && a[j] == a[1..][j - 1];
          }
        }
      } else {
        assert CartUnique(b[1..]);
        SubsequenceUnique(a, b[1..]);
      }
    }
  }

  lemma AddKeepsUnique(db: Db, ext: Externals, env: Env, user: TokenCodec.Claim, body: map<string, Php.Json>)
    requires CartUnique(db.cart)
    ensures CartUnique(Cart.AddToCart(db, ext, env, user, body).0.cart)
  {
    var out := Cart.AddToCart(db, ext, env, user, body);
    if out.1.code == 200 {
      var pid := RowId(ext, Cart.ProductKey(body));
      match Cart.FindLine(db.cart, user.id, pid)
      case Some(i) =>
      case None =>
        var cart' := out.0.cart;
        assert forall k :: 0 <= k < |db.cart| ==> db.cart[k] in db.cart;
    }
  }

  lemma SetKeepsUnique(db: Db, ext: Externals, env: Env, user: TokenCodec.Claim, body: map<string, Php.Json>)
    requires CartUnique(db.cart)
    ensures CartUnique(Cart.SetQuantity(db, ext, env, user, body).0.cart)
  {}

  lemma RemoveKeepsUnique(db: Db, ext: Externals, env: Env, user: TokenCodec.Claim, query: map<string, string>)
    requires CartUnique(db.cart)
    ensures CartUnique(Cart.RemoveFromCart(db, ext, env, user, query).0.cart)
  {
    var out := Cart.RemoveFromCart(db, ext, env, user, query);
    if out.1.code == 200 {
      SubsequenceUnique(out.0.cart, db.cart);
    }
  }

  /** Adding a product twice to a cart without it leaves one line for it,
      holding the sum of both quantities. */
  lemma AddTwiceOneLine(db: Db, ext: Externals, env1: Env, env2: Env, user: TokenCodec.Claim,
                        body1: map<string, Php.Json>, body2: map<string, Php.Json>)
    requires Cart.AddToCart(db, ext, env1, user, body1).1.code == 200
    requires var db1 := Cart.AddToCart(db, ext, env1, user, body1).0;
      Cart.AddToCart(db1, ext, env2, user, body2).1.code == 200
    requires RowId(ext, Cart.ProductKey(body1)) == RowId(ext, Cart.ProductKey(body2))
    requires Cart.LineCount(db.cart, user.id, RowId(ext, Cart.ProductKey(body1))) == 0
    ensures var db1 := Cart.AddToCart(db, ext, env1, user, body1).0;
      var db2 := Cart.AddToCart(db1, ext, env2, user, body2).0;
      var pid := RowId(ext, Cart.ProductKey(body1));
      && Cart.LineCount(db2.cart, user.id, pid) == 1
      && Cart.QuantityOf(db2.cart, user.id, pid)
         == ext.intColumn(Cart.QuantityValue(body1)) + ext.intColumn(Cart.QuantityValue(body2))
  {
    Cart.CountZeroNone(db.cart, user.id, RowId(ext, Cart.ProductKey(body1)));
  }

  // ----- Order totals -----

  /** Appending an order whose id no earlier row uses, together with its
      items, keeps every total equal to the sum over its items. */
  lemma {:induction false} AppendKeepsTotals(orders: seq<Order>, items: seq<OrderItem>, o': Order, added: seq<OrderItem>)
    requires forall o :: o in orders ==> o.id != o'.id && o.total == Orders.ItemsTotal(ItemsOf(items, o.id))
    requires forall it :: it in items ==> it.orderId != o'.id
    requires forall k :: 0 <= k < |added| ==> added[k].orderId == o'.id
    requires o'.total == Orders.ItemsTotal(added)
    ensures forall o :: o in orders + [o'] ==> o.total == Orders.ItemsTotal(ItemsOf(items + added, o.id))
  {
    forall o | o in orders + [o'] ensures o.total == Orders.ItemsTotal(ItemsOf(items + added, o.id)) {
      ItemsOfConcat(items, added, o.id);
      if o in orders {
        ItemsOfNone(added, o.id);
        assert ItemsOf(items, o.id) + [] == ItemsOf(items, o.id);
      } else {
        assert o == o';
        ItemsOfNone(items, o.id);
        ItemsOfAll(added, o.id);
        assert [] + added == added;
      }
    }
  }

  lemma PlaceKeepsTotals(db: Db, ext: Externals, env: Env, user: TokenCodec.Claim, body: map<string, Php.Json>)
    requires Fresh(db) && TotalsConsistent(db)
    ensures TotalsConsistent(Orders.PlaceOrder(db, ext, env, user, body).0)
  {
    var out := Orders.PlaceOrder(db, ext, env, user, body);
    if out.1.code == 200 {
      var db' := out.0;
      var added := db'.items[|db.items|..];
      assert db'.items == db.items + added;
      assert db'.orders == db.orders + [db'.orders[|db.orders|]];
      AppendKeepsTotals(db.orders, db.items, db'.orders[|db.orders|], added);
    }
  }

  lemma StatusKeepsTotals(db: Db, ext: Externals, env: Env, user: TokenCodec.Claim, query: map<string, string>, body: map<string, Php.Json>)
    requires TotalsConsistent(db)
    ensures TotalsConsistent(Orders.UpdateStatus(db, ext, env, user, query, body).0)
  {
    var out := Orders.UpdateStatus(db, ext, env, user, query, body);
    if out.1.code == 200 {
      forall o | o in out.0.orders ensures o.total == Orders.ItemsTotal(ItemsOf(out.0.items, o.id)) {
        var k :| 0 <= k < |out.0.orders| && out.0.orders[k] == o;
        assert db.orders[k] in db.orders;
      }
    }
  }

  // ----- Fresh ids -----

  lemma PlaceKeepsFresh(db: Db, ext: Externals, env: Env, user: TokenCodec.Claim, body: map<string, Php.Json>)
    requires Fresh(db)
    ensures Fresh(Orders.PlaceOrder(db, ext, env, user, body).0)
  {
    var out := Orders.PlaceOrder(db, ext, env, user, body);
    if out.1.code == 200 {
      var db' := out.0;
      var n := |db.items|;
      forall it | it in db'.items ensures it.id < db'.nextId && it.orderId < db'.nextId {
        var k :| 0 <= k < |db'.items| && db'.items[k] == it;
        if k < n {
          assert it == db'.items[..n][k];
          assert it in db.items;
        } else {
          assert it == db'.items[n + (k - n)];
        }
      }
      forall o | o in db'.orders ensures o.id < db'.nextId {
        var k :| 0 <= k < |db'.orders| && db'.orders[k] == o;
        if k < |db.orders| {
          assert o == db'.orders[..|db.orders|][k];
          assert o in db.orders;
        }
      }
    }
  }

  lemma ProductsKeepFresh(db: Db, ext: Externals, env: Env, req: Request)
    requires Fresh(db)
    ensures Fresh(Products.HandleProducts(db, ext, env, req).0)
  {
    var out := Products.HandleProducts(db, ext, env, req);
    if out.0 != db && req.verb == POST {
      var db' := out.0;
      assert db' == Products.CreateProduct(db, ext, env, req.body).0;
      forall p | p in db'.products ensures p.id < db'.nextId {
        var k :| 0 <= k < |db'.products| && db'.products[k] == p;
        if k < |db.products| {
          assert p == db'.products[..|db.products|][k];
          assert p in db.products;
        }
      }
    } else if out.0 != db && req.verb == PUT {
      var db' := out.0;
      forall p | p in db'.products ensures p.id < db'.nextId {
        var k :| 0 <= k < |db'.products| && db'.products[k] == p;
        assert db.products[k] in db.products;
      }
    }
  }

  lemma RegisterKeepsFresh(db: Db, ext: Externals, env: Env, body: map<string, Php.Json>)
    requires Fresh(db)
    ensures Fresh(Accounts.Register(db, ext, env, body).0)
  {
    var out := Accounts.Register(db, ext, env, body);
    if out.1.code == 200 {
      forall u | u in out.0.users ensures u.id < out.0.nextId {
        var k :| 0 <= k < |out.0.users| && out.0.users[k] == u;
        if k < |db.users| {
          assert u == out.0.users[..|db.users|][k];
          assert u in db.users;
        }
      }
    }
  }

  lemma AddKeepsFresh(db: Db, ext: Externals, env: Env, user: TokenCodec.Claim, body: map<string, Php.Json>)
    requires Fresh(db)
    ensures Fresh(Cart.AddToCart(db, ext, env, user, body).0)
  {
    var out := Cart.AddToCart(db, ext, env, user, body);
    if out.1.code == 200 {
      var pid := RowId(ext, Cart.ProductKey(body));
      match Cart.FindLine(db.cart, user.id, pid)
      case Some(i) =>
        forall l | l in out.0.cart ensures l.id < out.0.nextId {
          var k :| 0 <= k < |out.0.cart| && out.0.cart[k] == l;
          assert db.cart[k] in db.cart;
        }
      case None =>
    }
  }

  lemma SetKeepsFresh(db: Db, ext: Externals, env: Env, user: TokenCodec.Claim, body: map<string, Php.Json>)
    requires Fresh(db)
    ensures Fresh(Cart.SetQuantity(db, ext, env, user, body).0)
  {
    var out := Cart.SetQuantity(db, ext, env, user, body);
    forall l | l in out.0.cart ensures l.id < out.0.nextId {
      var k :| 0 <= k < |out.0.cart| && out.0.cart[k] == l;
      assert db.cart[k] in db.cart;
    }
  }

  lemma CartKeepsFresh(db: Db, ext: Externals, env: Env, req: Request)
    requires Fresh(db)
    ensures Fresh(Cart.HandleCart(db, ext, env, req).0)
  {
    match AuthGuard.Authenticate(req.authorization, env.now)
    case Failure(_) =>
    case Success(user) =>
      if req.verb == POST {
        AddKeepsFresh(db, ext, env, user, req.body);
      } else if req.verb == PUT {
        SetKeepsFresh(db, ext, env, user, req.body);
      }
  }

  // ----- Whole backend -----

  lemma AuthKeepsHealthy(db: Db, ext: Externals, env: Env, req: Request)
    requires Healthy(db)
    ensures Healthy(Accounts.HandleAuth(db, ext, env, req).0)
  {
    Accounts.RegisterKeepsEmailsUnique(db, ext, env, req.body);
    RegisterKeepsFresh(db, ext, env, req.body);
  }

  lemma ProductsKeepHealthy(db: Db, ext: Externals, env: Env, req: Request)
    requires Healthy(db)
    ensures Healthy(Products.HandleProducts(db, ext, env, req).0)
  {
    ProductsKeepFresh(db, ext, env, req);
  }

  lemma CartKeepsHealthy(db: Db, ext: Externals, env: Env, req: Request)
    requires Healthy(db)
    ensures Healthy(Cart.HandleCart(db, ext, env, req).0)
  {
    CartKeepsFresh(db, ext, env, req);
    match AuthGuard.Authenticate(req.authorization, env.now) {
      case Failure(_) =>
      case Success(user) =>
        AddKeepsUnique(db, ext, env, user, req.body);
        SetKeepsUnique(db, ext, env, user, req.body);
        RemoveKeepsUnique(db, ext, env, user, req.query);
    }
  }

  lemma PlaceKeepsHealthy(db: Db, ext: Externals, env: Env, user: TokenCodec.Claim, body: map<string, Php.Json>)
    requires Healthy(db)
    ensures Healthy(Orders.PlaceOrder(db, ext, env, user, body).0)
  {
    PlaceKeepsFresh(db, ext, env, user, body);
    PlaceKeepsTotals(db, ext, env, user, body);
    var out := Orders.PlaceOrder(db, ext, env, user, body);
    if out.1.code == 200 {
      Seqs.FilterIsSubsequence(db.cart, (l: CartLine) => l.userId != user.id);
      SubsequenceUnique(out.0.cart, db.cart);
    }
  }

  lemma StatusKeepsHealthy(db: Db, ext: Externals, env: Env, user: TokenCodec.Claim,
                           query: map<string, string>, body: map<string, Php.Json>)
    requires Healthy(db)
    ensures Healthy(Orders.UpdateStatus(db, ext, env, user, query, body).0)
  {
    StatusKeepsTotals(db, ext, env, user, query, body);
    var out := Orders.UpdateStatus(db, ext, env, user, query, body);
    if out.1.code == 200 {
      forall o | o in out.0.orders ensures o.id < out.0.nextId {
        var k :| 0 <= k < |out.0.orders| && out.0.orders[k] == o;
        assert db.orders[k] in db.orders;
      }
    }
  }

  lemma OrdersKeepHealthy(db: Db, ext: Externals, env: Env, req: Request)
    requires Healthy(db)
    ensures Healthy(Orders.HandleOrders(db, ext, env, req).0)
  {
    match AuthGuard.Authenticate(req.authorization, env.now) {
      case Failure(_) =>
      case Success(user) =>
        if req.verb == POST {
          PlaceKeepsHealthy(db, ext, env, user, req.body);
        } else if req.verb == PUT {
          StatusKeepsHealthy(db, ext, env, user, req.query, req.body);
        }
    }
  }

  /** Every request, on every endpoint, keeps the tables healthy. */
  lemma ServeKeepsHealthy(db: Db, ext: Externals, env: Env, ep: Endpoint, req: Request)
    requires Healthy(db)
    ensures Healthy(Serve(db, ext, env, ep, req).0)
  {
    match ep
    case AuthApi => AuthKeepsHealthy(db, ext, env, req);
    case ProductsApi => ProductsKeepHealthy(db, ext, env, req);
    case CartApi => CartKeepsHealthy(db, ext, env, req);
    case OrdersApi => OrdersKeepHealthy(db, ext, env, req);
    case UsersApi =>
  }
}

=== FILE: cart.dfy ===
/** backend/api/cart.php: every request is authenticated; the caller reads,
    adds to, re-sets and removes lines of their own cart only. The PDO
    connection throws on a failed write and the handler does not catch it,
    so such a request ends in an uncaught error with nothing changed. */
module Cart {
  import opened Wrappers
  import opened Php
  import Seqs
  import opened Store
  import AuthGuard
  import TokenCodec

  predicate Matches(l: CartLine, uid: int, pid: int) {
    l.userId == uid && l.productId == pid
  }

  /** Total quantity of one product in one user's cart, over all its lines. */
  function QuantityOf(cart: seq<CartLine>, uid: int, pid: int): int {
    if |cart| == 0 then 0
    else
      var last := cart[|cart| - 1];
      QuantityOf(cart[..|cart| - 1], uid, pid) + (if Matches(last, uid, pid) then last.quantity else 0)
  }

  /** Number of lines one user's cart holds for one product. */
  function LineCount(cart: seq<CartLine>, uid: int, pid: int): nat {
    if |cart| == 0 then 0
    else LineCount(cart[..|cart| - 1], uid, pid) + (if Matches(cart[|cart| - 1], uid, pid) then 1 else 0)
  }

  lemma {:induction false} CountZeroNone(cart: seq<CartLine>, uid: int, pid: int)
    ensures LineCount(cart, uid, pid) == 0 <==> forall l :: l in cart ==> !Matches(l, uid, pid)
    ensures LineCount(cart, uid, pid) == 0 ==> QuantityOf(cart, uid, pid) == 0
  {
    if |cart| > 0 {
      var init := cart[..|cart| - 1];
      CountZeroNone(init, uid, pid);
      assert cart == init + [cart[|cart| - 1]];
      assert forall l :: l in cart <==> l in init || l == cart[|cart| - 1];
    }
  }

  /** Rewriting one line's quantity, keeping its user and product, moves that
      pair's total by the difference and changes no other pair. */
  lemma {:induction false} UpdateLine(cart: seq<CartLine>, i: nat, q: int, uid: int, pid: int)
    requires i < |cart|
    ensures var cart' := cart[i := cart[i].(quantity := q)];
      && LineCount(cart', uid, pid) == LineCount(cart, uid, pid)
      && QuantityOf(cart', uid, pid) == QuantityOf(cart, uid, pid)
           + (if Matches(cart[i], uid, pid) then q - cart[i].quantity else 0)
    decreases |cart|
  {
    var cart' := cart[i := cart[i].(quantity := q)];
    var n := |cart|;
    if i == n - 1 {
      assert cart'[..n - 1] == cart[..n - 1];
    } else {
      assert cart'[..n - 1] == cart[..n - 1][i := cart[i].(quantity := q)];
      UpdateLine(cart[..n - 1], i, q, uid, pid);
    }
  }

  lemma UpdateLineOthers(cart: seq<CartLine>, i: nat, q: int)
    requires i < |cart|
    ensures forall u, p :: !Matches(cart[i], u, p) ==>
      && LineCount(cart[i := cart[i].(quantity := q)], u, p) == LineCount(cart, u, p)
      && QuantityOf(cart[i := cart[i].(quantity := q)], u, p) == QuantityOf(cart, u, p)
  {
    forall u, p | !Matches(cart[i], u, p) {
      UpdateLine(cart, i, q, u, p);
    }
  }

  lemma AppendLine(cart: seq<CartLine>, l: CartLine, uid: int, pid: int)
    ensures LineCount(cart + [l], uid, pid) == LineCount(cart, uid, pid) + (if Matches(l, uid, pid) then 1 else 0)
    ensures QuantityOf(cart + [l], uid, pid) == QuantityOf(cart, uid, pid) + (if Matches(l, uid, pid) then l.quantity else 0)
  {
    assert (cart + [l])[..|cart|] == cart;
  }

  /** `SELECT id, quantity FROM cart WHERE user_id = ? AND product_id = ?`
      fetched once: the position of the first matching line. */
  function FindLine(cart: seq<CartLine>, uid: int, pid: int): (r: Option<nat>)
    ensures r.Some? ==> r.value < |cart| && Matches(cart[r.value], uid, pid)
    ensures r.Some? ==> forall k :: 0 <= k < r.value ==> !Matches(cart[k], uid, pid)
    ensures r.None? <==> forall l :: l in cart ==> !Matches(l, uid, pid)
  {
    if |cart| == 0 then None
    else if Matches(cart[0], uid, pid) then Some(0)
    else
      match FindLine(cart[1..], uid, pid)
      case None =>
        assert forall l :: l in cart <==> l == cart[0] || l in cart[1..];
        None
      case Some(k) => Some(k + 1)
  }

  /** The caller's lines whose product exists, with its name, price and image
      (`SELECT c.*, p.name, p.price, p.image_url ... JOIN products`). */
  function CartEntries(cart: seq<CartLine>, products: seq<Product>, uid: int): (r: seq<CartEntry>)
    ensures forall e :: e in r ==>
      && e.line in cart && e.line.userId == uid
      && FindProduct(products, e.line.productId).Some?
      && var p := FindProduct(products, e.line.productId).value;
         e.name == p.name && e.price == p.price && e.imageUrl == p.imageUrl
    ensures forall l :: l in cart && l.userId == uid && FindProduct(products, l.productId).Some? ==>
      exists e :: e in r && e.line == l
  {
    if |cart| == 0 then []
    else
      var l := cart[0];
      var rest := CartEntries(cart[1..], products, uid);
      assert forall x :: x in cart <==> x == l || x in cart[1..];
      if l.userId == uid && FindProduct(products, l.productId).Some? then
        var p := FindProduct(products, l.productId).value;
        [CartEntry(l, p.name, p.price, p.imageUrl)] + rest
      else rest
  }

  function ProductKey(body: map<string, Json>): Json {
    Field(body, "product_id", JStr(""))
  }

  function QuantityValue(body: map<string, Json>): Json {
    Field(body, "quantity", JInt(1))
  }

  /** POST: adds `quantity` (default 1) of a product to the caller's cart,
      raising the quantity of the existing line if there is one. */
  function AddToCart(db: Db, ext: Externals, env: Env, user: TokenCodec.Claim, body: map<string, Json>): (out: (Db, Response))
    ensures Empty(ProductKey(body)) ==> out == (db, Respond(400, "Product ID required"))
    ensures !Empty(ProductKey(body)) && env.writeFails ==> out == (db, Response(500, Uncaught))
    ensures out.1.code == 200 <==> !Empty(ProductKey(body)) && !env.writeFails
    ensures out.1.code != 200 ==> out.0 == db
    ensures out.1.code == 200 ==>
      var uid := user.id;
      var pid := RowId(ext, ProductKey(body));
      var cart' := out.0.cart;
      && out.1 == Respond(200, "Item added to cart")
      && out.0 == db.(cart := cart', nextId := out.0.nextId)
      && QuantityOf(cart', uid, pid) == QuantityOf(db.cart, uid, pid) + ext.intColumn(QuantityValue(body))
      && LineCount(cart', uid, pid) == (if LineCount(db.cart, uid, pid) == 0 then 1 else LineCount(db.cart, uid, pid))
      && (forall u, p :: !(u == uid && p == pid) ==>
            QuantityOf(cart', u, p) == QuantityOf(db.cart, u, p) && LineCount(cart', u, p) == LineCount(db.cart, u, p))
  {
    var key := ProductKey(body);
    if Empty(key) then (db, Respond(400, "Product ID required"))
    else if env.writeFails then (db, Response(500, Uncaught))
    else
      var pid := RowId(ext, key);
      var q := ext.intColumn(QuantityValue(body));
      match FindLine(db.cart, user.id, pid)
      case Some(i) =>
        var cart' := db.cart[i := db.cart[i].(quantity := db.cart[i].quantity + q)];
        UpdateLine(db.cart, i, db.cart[i].quantity + q, user.id, pid);
        UpdateLineOthers(db.cart, i, db.cart[i].quantity + q);
        CountZeroNone(db.cart, user.id, pid);
        (db.(cart := cart'), Respond(200, "Item added to cart"))
      case None =>
        var line := CartLine(db.nextId, user.id, pid, q);
        AppendLine(db.cart, line, user.id, pid);
        CountZeroNone(db.cart, user.id, pid);
        assert forall u, p :: !(u == user.id && p == pid) ==>
          QuantityOf(db.cart + [line], u, p) == QuantityOf(db.cart, u, p) && LineCount(db.cart + [line], u, p) == LineCount(db.cart, u, p)
        by {
          forall u, p { AppendLine(db.cart, line, u, p); }
        }
        (db.(cart := db.cart + [line], nextId := db.nextId + 1), Respond(200, "Item added to cart"))
  }

  /** PUT: sets the quantity of every caller line for the product; with no
      such line nothing changes and the answer is still a success. */
  function SetQuantity(db: Db, ext: Externals, env: Env, user: TokenCodec.Claim, body: map<string, Json>): (out: (Db, Response))
    ensures Empty(ProductKey(body)) ==> out == (db, Respond(400, "Product ID required"))
    ensures !Empty(ProductKey(body)) && env.writeFails ==> out == (db, Response(500, Uncaught))
    ensures out.1.code == 200 <==> !Empty(ProductKey(body)) && !env.writeFails
    ensures out.1.code != 200 ==> out.0 == db
    ensures out.1.code == 200 ==>
      var pid := RowId(ext, ProductKey(body));
      && out.1 == Respond(200, "Cart updated")
      && out.0 == db.(cart := out.0.cart)
      && |out.0.cart| == |db.cart|
      && forall k :: 0 <= k < |db.cart| ==>
           out.0.cart[k] == if Matches(db.cart[k], user.id, pid)
                            then db.cart[k].(quantity := ext.intColumn(QuantityValue(body)))
                            else db.cart[k]
  {
    var key := ProductKey(body);
    if Empty(key) then (db, Respond(400, "Product ID required"))
    else if env.writeFails then (db, Response(500, Uncaught))
    else
      var pid := RowId(ext, key);
      var q := ext.intColumn(QuantityValue(body));
      var cart' := seq(|db.cart|, k requires 0 <= k < |db.cart| =>
        if Matches(db.cart[k], user.id, pid) then db.cart[k].(quantity := q) else db.cart[k]);
      (db.(cart := cart'), Respond(200, "Cart updated"))
  }

  /** DELETE: drops every caller line for the product named by `?product_id`. */
  function RemoveFromCart(db: Db, ext: Externals, env: Env, user: TokenCodec.Claim, query: map<string, string>): (out: (Db, Response))
    ensures Empty(Param(query, "product_id")) ==> out == (db, Respond(400, "Product ID required"))
    ensures !Empty(Param(query, "product_id")) && env.writeFails ==> out == (db, Response(500, Uncaught))
    ensures out.1.code == 200 <==> !Empty(Param(query, "product_id")) && !env.writeFails
    ensures out.1.code != 200 ==> out.0 == db
    ensures out.1.code == 200 ==>
      var pid := RowId(ext, Param(query, "product_id"));
      && out.1 == Respond(200, "Item removed from cart")
      && out.0 == db.(cart := out.0.cart)
      && Seqs.IsSubsequence(out.0.cart, db.cart)
      && forall l :: l in out.0.cart <==> l in db.cart && !Matches(l, user.id, pid)
  {
    var key := Param(query, "product_id");
    if Empty(key) then (db, Respond(400, "Product ID required"))
    else if env.writeFails then (db, Response(500, Uncaught))
    else
      var pid := RowId(ext, key);
      var keep := (l: CartLine) => !Matches(l, user.id, pid);
      Seqs.FilterIsSubsequence(db.cart, keep);
      (db.(cart := Seqs.Filter(db.cart, keep)), Respond(200, "Item removed from cart"))
  }

  /** The request handler: authentication first, then the method. */
  function HandleCart(db: Db, ext: Externals, env: Env, req: Request): (out: (Db, Response))
    ensures req.authorization.None? ==> out == (db, Respond(401, "No token provided"))
    ensures AuthGuard.Authenticate(req.authorization, env.now).Failure? ==> out.0 == db && out.1.code == 401
    ensures out.0 == db.(cart := out.0.cart, nextId := out.0.nextId)
    ensures AuthGuard.Authenticate(req.authorization, env.now).Success? && req.verb == GET ==>
      var uid := AuthGuard.Authenticate(req.authorization, env.now).value.id;
      && out == (db, Response(200, CartList(CartEntries(db.cart, db.products, uid))))
      && forall e :: e in out.1.body.entries ==> e.line.userId == uid
    ensures AuthGuard.Authenticate(req.authorization, env.now).Success? && !req.verb.GET? && !req.verb.POST? && !req.verb.PUT? && !req.verb.DELETE? ==>
      out == (db, MethodNotAllowed)
  {
    match AuthGuard.Authenticate(req.authorization, env.now)
    case Failure(resp) => (db, resp)
    case Success(user) =>
      match req.verb
      case GET => (db, Response(200, CartList(CartEntries(db.cart, db.products, user.id))))
      case POST => AddToCart(db, ext, env, user, req.body)
      case PUT => SetQuantity(db, ext, env, user, req.body)
      case DELETE => RemoveFromCart(db, ext, env, user, req.query)
      case _ => (db, MethodNotAllowed)
  }
}

=== FILE: catalog_view.dfy ===
/** src/pages/Home.js: the catalog page narrows the fetched products by a
    search term, a category and a price band, orders them by the chosen key
    and shows twelve per page. Prices are in cents, so the dollar limits 25,
    50 and 100 are 2500, 5000 and 10000. */
module CatalogView {
  import opened Wrappers
  import Text
  import Seqs
  import Sorting

  /** A product as the page receives it; the catalog rows carry no category,
      so a fetched product's `category` is always absent. */
  datatype Card = Card(id: int, name: string, description: string, price: int, createdAt: int, category: Option<string>)

  /** The four controls above the grid. */
  datatype Criteria = Criteria(search: string, category: string, priceRange: string, sortBy: string)

  const PerPage := 12

  /** Case-insensitive substring search in the name or the description. */
  predicate MatchesSearch(c: Card, term: string) {
    var t := Text.Lower(term);
    Text.Contains(Text.Lower(c.name), t) || Text.Contains(Text.Lower(c.description), t)
  }

  predicate InCategory(c: Card, selected: string) {
    selected == "all" || c.category == Some(selected)
  }

  /** The price band a range key names, in cents; an unknown key is no band. */
  predicate InBand(range: string, price: int) {
    if range == "under-25" then price < 2500
    else if range == "25-50" then 2500 <= price <= 5000
    else if range == "50-100" then 5000 <= price <= 10000
    else if range == "over-100" then price > 10000
    else true
  }

  /** Every price falls in some band; neighbouring bands share their
      boundary at 50.00 but not at 25.00 or 100.00; an unknown band keeps
      every price. */
  lemma BandBoundaries(range: string, price: int)
    ensures InBand("under-25", price) || InBand("25-50", price) || InBand("50-100", price) || InBand("over-100", price)
    ensures InBand("25-50", price) && InBand("50-100", price) <==> price == 5000
    ensures !(InBand("under-25", price) && InBand("25-50", price))
    ensures !(InBand("50-100", price) && InBand("over-100", price))
    ensures range !in {"under-25", "25-50", "50-100", "over-100"} ==> InBand(range, price)
  {}

  /** The conjunction of the three filters. */
  predicate Keeps(c: Card, k: Criteria) {
    MatchesSearch(c, k.search) && InCategory(c, k.category) && InBand(k.priceRange, c.price)
  }

  lemma EmptySearchMatches(c: Card)
    ensures MatchesSearch(c, "")
  {
    assert Text.Lower("") == "";
    assert Text.Lower(c.name)[..0] == "";
  }

  /** The search step runs only for a non-empty term; the empty term would
      keep every product anyway. */
  function BySearch(cards: seq<Card>, term: string): (r: seq<Card>)
    ensures forall c :: c in r <==> c in cards && MatchesSearch(c, term)
    ensures Seqs.IsSubsequence(r, cards)
  {
    if term == "" then
      forall c | c in cards ensures MatchesSearch(c, term) { EmptySearchMatches(c); }
      Seqs.SubsequenceRefl(cards);
      cards
    else
      var keep := (c: Card) => MatchesSearch(c, term);
      Seqs.FilterIsSubsequence(cards, keep);
      Seqs.Filter(cards, keep)
  }

  function ByCategory(cards: seq<Card>, selected: string): (r: seq<Card>)
    ensures forall c :: c in r <==> c in cards && InCategory(c, selected)
    ensures Seqs.IsSubsequence(r, cards)
  {
    var keep := (c: Card) => c.category == Some(selected);
    if selected == "all" then
      Seqs.SubsequenceRefl(cards);
      cards
    else
      Seqs.FilterIsSubsequence(cards, keep);
      Seqs.Filter(cards, keep)
  }

  function ByPrice(cards: seq<Card>, range: string): (r: seq<Card>)
    ensures forall c :: c in r <==> c in cards && InBand(range, c.price)
    ensures Seqs.IsSubsequence(r, cards)
  {
    if range in {"under-25", "25-50", "50-100", "over-100"} then
      var keep := (c: Card) => InBand(range, c.price);
      Seqs.FilterIsSubsequence(cards, keep);
      Seqs.Filter(cards, keep)
    else
      Seqs.SubsequenceRefl(cards);
      cards
  }

  /** The three filters in the order the effect applies them. Filtering only
      deletes, and keeps exactly the products all three accept. */
  function Filtered(cards: seq<Card>, k: Criteria): (r: seq<Card>)
    ensures forall c :: c in r <==> c in cards && Keeps(c, k)
    ensures Seqs.IsSubsequence(r, cards)
  {
    var a := BySearch(cards, k.search);
    var b := ByCategory(a, k.category);
    var r := ByPrice(b, k.priceRange);
    Seqs.SubsequenceTrans(b, a, cards);
    Seqs.SubsequenceTrans(r, b, cards);
    r
  }

  /** The comparator handed to `Array.prototype.sort`; `collate` stands for
      `localeCompare`. */
  function Comparator(sortBy: string, collate: (string, string) -> int): (r: (Card, Card) -> int)
    ensures sortBy == "price-low" ==> Sorting.ComparesBy(r, (c: Card) => c.price)
    ensures sortBy == "price-high" ==> Sorting.ComparesBy(r, (c: Card) => -c.price)
    ensures sortBy == "newest" ==> Sorting.ComparesBy(r, (c: Card) => -c.createdAt)
    ensures sortBy == "name" ==> forall a: Card, b: Card :: r(a, b) == collate(a.name, b.name)
    ensures sortBy !in {"price-low", "price-high", "name", "newest"} ==> forall a: Card, b: Card :: r(a, b) == 0
  {
    if sortBy == "price-low" then (a: Card, b: Card) => a.price - b.price
    else if sortBy == "price-high" then (a: Card, b: Card) => b.price - a.price
    else if sortBy == "name" then (a: Card, b: Card) => collate(a.name, b.name)
    else if sortBy == "newest" then (a: Card, b: Card) => b.createdAt - a.createdAt
    else (a: Card, b: Card) => 0
  }

  /** The list the grid pages through: the filtered products, reordered. */
  function Arranged(cards: seq<Card>, k: Criteria, collate: (string, string) -> int): (r: seq<Card>)
    ensures multiset(r) == multiset(Filtered(cards, k))
    ensures forall c :: c in r <==> c in cards && Keeps(c, k)
  {
    var f := Filtered(cards, k);
    var r := Sorting.Sort(f, Comparator(k.sortBy, collate));
    assert forall c :: c in r <==> c in multiset(f);
    r
  }

  lemma PriceLowAscending(cards: seq<Card>, k: Criteria, collate: (string, string) -> int)
    requires k.sortBy == "price-low"
    ensures var r := Arranged(cards, k, collate);
      forall i, j :: 0 <= i < j < |r| ==> r[i].price <= r[j].price
  {
    Sorting.SortSorted(Filtered(cards, k), Comparator(k.sortBy, collate), (c: Card) => c.price);
  }

  lemma PriceHighDescending(cards: seq<Card>, k: Criteria, collate: (string, string) -> int)
    requires k.sortBy == "price-high"
    ensures var r := Arranged(cards, k, collate);
      forall i, j :: 0 <= i < j < |r| ==> r[i].price >= r[j].price
  {
    Sorting.SortSorted(Filtered(cards, k), Comparator(k.sortBy, collate), (c: Card) => -c.price);
  }

  lemma NewestFirst(cards: seq<Card>, k: Criteria, collate: (string, string) -> int)
    requires k.sortBy == "newest"
    ensures var r := Arranged(cards, k, collate);
      forall i, j :: 0 <= i < j < |r| ==> r[i].createdAt >= r[j].createdAt
  {
    Sorting.SortSorted(Filtered(cards, k), Comparator(k.sortBy, collate), (c: Card) => -c.createdAt);
  }

  /** An unknown sort key compares every pair as equal, and the stable sort
      leaves the filtered order as it was. */
  lemma UnknownSortKeepsOrder(cards: seq<Card>, k: Criteria, collate: (string, string) -> int)
    requires k.sortBy !in {"price-low", "price-high", "name", "newest"}
    ensures Arranged(cards, k, collate) == Filtered(cards, k)
  {
    Sorting.SortKeepsTies(Filtered(cards, k), Comparator(k.sortBy, collate));
  }

  /** Coverage stated over the four band names the page offers, which
      needs a witness band per price; BandBoundaries states it as a
      disjunction. $50 falls in two bands; $25 only in 25-50. */
  lemma BandsCoverAllPrices(price: int)
    ensures exists range :: range in {"under-25", "25-50", "50-100", "over-100"} && InBand(range, price)
    ensures InBand("25-50", 5000) && InBand("50-100", 5000)
    ensures InBand("under-25", 2500) == false && InBand("25-50", 2500)
  {
    if price < 2500 { assert InBand("under-25", price); }
    else if price <= 5000 { assert InBand("25-50", price); }
    else if price <= 10000 { assert InBand("50-100", price); }
    else { assert InBand("over-100", price); }
  }

  /** Fetched products have no category, so choosing any category other
      than "all" leaves nothing to show. */
  lemma CategoryEmptiesCatalog(cards: seq<Card>, k: Criteria)
    requires k.category != "all"
    requires forall c :: c in cards ==> c.category.None?
    ensures Filtered(cards, k) == []
  {}

  // ----- Pagination -----

  /** `Math.ceil(n / 12)`. */
  function PageCount(n: nat): (k: nat)
    ensures k * PerPage >= n
    ensures k == 0 || (k - 1) * PerPage < n
    ensures k == 0 <==> n == 0
  {
    (n + PerPage - 1) / PerPage
  }

  /** A JavaScript `slice` bound: negative counts from the end, and both
      directions are clamped to the sequence. */
  function SliceBound(i: int, n: nat): (b: nat)
    ensures b <= n
  {
    if i < 0 then (if n + i < 0 then 0 else n + i) else if i > n then n else i
  }

  function JsSlice<T>(s: seq<T>, start: int, end: int): (r: seq<T>)
    ensures |r| <= |s|
  {
    var a := SliceBound(start, |s|);
    var b := SliceBound(end, |s|);
    if a < b then s[a..b] else []
  }

  /** The products page `page` shows (pages count from 1). */
  function Page<T>(list: seq<T>, page: int): seq<T> {
    var start := (page - 1) * PerPage;
    JsSlice(list, start, start + PerPage)
  }

  function Min(a: int, b: int): int {
    if a < b then a else b
  }

  /** Page `p` holds elements from (p-1)*12 up to p*12 or the end, at most
      twelve of them, whatever page number is asked for. */
  lemma PageContents<T>(list: seq<T>, page: int)
    ensures |Page(list, page)| <= PerPage
    ensures page >= 1 ==>
      Page(list, page) == list[Min((page - 1) * PerPage, |list|)..Min(page * PerPage, |list|)]
  {}

  /** Pages 1 to k, one after the other. */
  function Pages<T>(list: seq<T>, k: nat): seq<T> {
    if k == 0 then [] else Pages(list, k - 1) + Page(list, k)
  }

  lemma {:induction false} PagesPrefix<T>(list: seq<T>, k: nat)
    ensures Pages(list, k) == list[..Min(k * PerPage, |list|)]
  {
    if k > 0 {
      PagesPrefix(list, k - 1);
      PageContents(list, k);
      var m := Min((k - 1) * PerPage, |list|);
      assert list[..m] + list[m..Min(k * PerPage, |list|)] == list[..Min(k * PerPage, |list|)];
    }
  }

  /** Reading the pages from the first to the last gives back the whole
      list, each product exactly once. */
  lemma PagesCoverList<T>(list: seq<T>)
    ensures Pages(list, PageCount(|list|)) == list
  {
    PagesPrefix(list, PageCount(|list|));
  }

  // ----- Page state -----

  /** What the page holds between renders. */
  datatype View = View(products: seq<Card>, criteria: Criteria, page: int, shown: seq<Card>)

  datatype Event =
    | Loaded(fetched: seq<Card>)
    | SearchTyped(term: string)
    | CategoryChosen(category: string)
    | RangeChosen(range: string)
    | SortChosen(key: string)
    | PageChosen(number: int)

  function Initial(): View {
    View([], Criteria("", "all", "all", "name"), 1, [])
  }

  /** `shown` is the arranged list of the current products and controls. */
  predicate Consistent(v: View, collate: (string, string) -> int) {
    v.shown == Arranged(v.products, v.criteria, collate)
  }

  /** The effect with its dependency list: it runs when the products or a
      control change (a fetched list is always a new array) and then sends
      the reader back to page 1. */
  function Refresh(v: View, collate: (string, string) -> int): View {
    v.(shown := Arranged(v.products, v.criteria, collate), page := 1)
  }

  function Step(v: View, e: Event, collate: (string, string) -> int): (r: View)
    ensures Consistent(v, collate) ==> Consistent(r, collate)
    ensures e.PageChosen? ==> r == v.(page := e.number)
    ensures e.Loaded? ==> r.page == 1 && r.products == e.fetched
    ensures !e.PageChosen? ==> r.page == 1 || r == v
    ensures !e.PageChosen? && !e.Loaded? ==> (r.criteria != v.criteria <==> r != v)
    ensures !e.PageChosen? && r.criteria != v.criteria ==> r.page == 1
  {
    var k := v.criteria;
    match e
    case Loaded(ps) => Refresh(v.(products := ps), collate)
    case SearchTyped(t) => if t == k.search then v else Refresh(v.(criteria := k.(search := t)), collate)
    case CategoryChosen(c) => if c == k.category then v else Refresh(v.(criteria := k.(category := c)), collate)
    case RangeChosen(p) => if p == k.priceRange then v else Refresh(v.(criteria := k.(priceRange := p)), collate)
    case SortChosen(s) => if s == k.sortBy then v else Refresh(v.(criteria := k.(sortBy := s)), collate)
    case PageChosen(n) => v.(page := n)
  }

  /** From the first render on, the grid always shows the arranged products. */
  lemma {:induction false} AlwaysConsistent(events: seq<Event>, collate: (string, string) -> int)
    ensures Consistent(Run(Initial(), events, collate), collate)
    decreases |events|
  {
    if |events| > 0 {
      AlwaysConsistent(events[..|events| - 1], collate);
    }
  }

  function Run(v: View, events: seq<Event>, collate: (string, string) -> int): View
    decreases |events|
  {
    if |events| == 0 then v else Step(Run(v, events[..|events| - 1], collate), events[|events| - 1], collate)
  }
}

=== FILE: orders.dfy ===
/** backend/api/orders.php: the caller's or every order, placing an order
    from the cart in one transaction, and the admin-only status update. */
module Orders {
  import opened Wrappers
  import opened Php
  import Seqs
  import opened Store
  import AuthGuard
  import TokenCodec

  /** A cart line joined with its product's current price
      (`SELECT c.*, p.price FROM cart c JOIN products p ...`). */
  datatype PricedLine = PricedLine(line: CartLine, price: int)

  /** The caller's cart lines whose product still exists, in table order,
      each with the product's price at this instant. */
  function PricedCart(cart: seq<CartLine>, products: seq<Product>, uid: int): (r: seq<PricedLine>)
    ensures |r| <= |cart|
    ensures forall k :: 0 <= k < |r| ==>
      && r[k].line in cart
      && r[k].line.userId == uid
      && FindProduct(products, r[k].line.productId).Some?
      && r[k].price == FindProduct(products, r[k].line.productId).value.price
    ensures r == [] <==> forall l :: l in cart && l.userId == uid ==> FindProduct(products, l.productId).None?
  {
    if |cart| == 0 then []
    else
      var l := cart[0];
      var rest := PricedCart(cart[1..], products, uid);
      assert forall x :: x in cart <==> x == l || x in cart[1..];
      if l.userId == uid && FindProduct(products, l.productId).Some? then
        [PricedLine(l, FindProduct(products, l.productId).value.price)] + rest
      else rest
  }

  /** Sum of price * quantity over the priced cart. */
  function CartTotal(lines: seq<PricedLine>): int {
    if |lines| == 0 then 0
    else lines[0].price * lines[0].line.quantity + CartTotal(lines[1..])
  }

  /** Sum of price * quantity over order items. */
  function ItemsTotal(items: seq<OrderItem>): int {
    if |items| == 0 then 0
    else items[0].price * items[0].quantity + ItemsTotal(items[1..])
  }

  /** One item per priced line, copying product, quantity and price. */
  function NewItems(orderId: nat, lines: seq<PricedLine>, firstId: nat): (r: seq<OrderItem>)
    ensures |r| == |lines|
  {
    seq(|lines|, k requires 0 <= k < |lines| =>
      OrderItem(firstId + k, orderId, lines[k].line.productId, lines[k].line.quantity, lines[k].price))
  }

  /** The copied prices reproduce the total computed from the cart. */
  lemma {:induction false} NewItemsTotal(orderId: nat, lines: seq<PricedLine>, firstId: nat)
    ensures ItemsTotal(NewItems(orderId, lines, firstId)) == CartTotal(lines)
    decreases |lines|
  {
    if |lines| > 0 {
      var r := NewItems(orderId, lines, firstId);
      assert r[1..] == NewItems(orderId, lines[1..], firstId + 1);
      NewItemsTotal(orderId, lines[1..], firstId + 1);
    }
  }

  const AddressKey := "shipping_address"

  function Address(body: map<string, Json>): Json {
    Field(body, AddressKey, JStr(""))
  }

  /** POST: turns the caller's cart into one order and its items, then
      empties the caller's cart. The writes run in one transaction: when any
      of them fails, everything is rolled back. The shipping address is
      checked but not stored. */
  function PlaceOrder(db: Db, ext: Externals, env: Env, user: TokenCodec.Claim, body: map<string, Json>): (out: (Db, Response))
    ensures Empty(Address(body)) ==> out == (db, Respond(400, "Shipping address required"))
    ensures !Empty(Address(body)) && PricedCart(db.cart, db.products, user.id) == [] ==>
      out == (db, Respond(400, "Cart is empty"))
    ensures !Empty(Address(body)) && PricedCart(db.cart, db.products, user.id) != [] && env.writeFails ==>
      out == (db, Respond(400, "Failed to place order"))
    ensures out.1.code != 200 ==> out.0 == db
    ensures out.1.code == 200 <==>
      !Empty(Address(body)) && PricedCart(db.cart, db.products, user.id) != [] && !env.writeFails
    ensures out.1.code == 200 ==>
      var lines := PricedCart(db.cart, db.products, user.id);
      var db' := out.0;
      && out.1 == Response(200, OrderPlaced(db.nextId))
      && |db'.orders| == |db.orders| + 1 && db'.orders[..|db.orders|] == db.orders
      && db'.orders[|db.orders|] == Order(db.nextId, user.id, CartTotal(lines), ext.defaultStatus, env.now)
      && |db'.items| == |db.items| + |lines| && db'.items[..|db.items|] == db.items
      && (forall k :: 0 <= k < |lines| ==>
            && db'.items[|db.items| + k].id == db.nextId + 1 + k
            && db'.items[|db.items| + k].orderId == db.nextId
            && db'.items[|db.items| + k].productId == lines[k].line.productId
            && db'.items[|db.items| + k].quantity == lines[k].line.quantity
            && db'.items[|db.items| + k].price == lines[k].price)
      && ItemsTotal(db'.items[|db.items|..]) == db'.orders[|db.orders|].total
      && (forall l :: l in db'.cart <==> l in db.cart && l.userId != user.id)
      && db'.users == db.users && db'.products == db.products
      && db'.nextId == db.nextId + 1 + |lines|
  {
    var address := Address(body);
    if Empty(address) then (db, Respond(400, "Shipping address required"))
    else
      var lines := PricedCart(db.cart, db.products, user.id);
      if lines == [] then (db, Respond(400, "Cart is empty"))
      else if env.writeFails then (db, Respond(400, "Failed to place order"))
      else
        var orderId := db.nextId;
        var order := Order(orderId, user.id, CartTotal(lines), ext.defaultStatus, env.now);
        var added := NewItems(orderId, lines, orderId + 1);
        NewItemsTotal(orderId, lines, orderId + 1);
        var db' := db.(
          orders := db.orders + [order],
          items := db.items + added,
          cart := Seqs.Filter(db.cart, (l: CartLine) => l.userId != user.id),
          nextId := orderId + 1 + |lines|);
        assert db'.items[|db.items|..] == added;
        (db', Response(200, OrderPlaced(orderId)))
  }

  /** PUT: an admin sets the status of the order named by `?id` to any
      non-empty string; no transition or value check is made. */
  function UpdateStatus(db: Db, ext: Externals, env: Env, user: TokenCodec.Claim,
                        query: map<string, string>, body: map<string, Json>): (out: (Db, Response))
    ensures user.role != "admin" ==> out == (db, AdminRequired)
    ensures user.role == "admin" && !TruthyParam(query, "id") ==> out == (db, Respond(400, "Order ID required"))
    ensures user.role == "admin" && TruthyParam(query, "id") && Empty(Field(body, "status", JStr(""))) ==>
      out == (db, Respond(400, "Status required"))
    ensures user.role == "admin" && TruthyParam(query, "id") && !Empty(Field(body, "status", JStr(""))) && env.writeFails ==>
      out == (db, Respond(400, "Failed to update order"))
    ensures out.1.code == 200 <==>
      user.role == "admin" && TruthyParam(query, "id") && !Empty(Field(body, "status", JStr(""))) && !env.writeFails
    ensures out.1.code == 200 ==> out.1 == Respond(200, "Order status updated")
    ensures out.1.code != 200 ==> out.0 == db
    ensures out.1.code == 200 ==>
      var target := RowId(ext, Param(query, "id"));
      var status := ToText(Field(body, "status", JStr("")));
      && user.role == "admin" && status != ""
      && out.0 == db.(orders := out.0.orders)
      && |out.0.orders| == |db.orders|
      && forall k :: 0 <= k < |db.orders| ==>
           out.0.orders[k] == if db.orders[k].id == target then db.orders[k].(status := status) else db.orders[k]
  {
    if user.role != "admin" then (db, AdminRequired)
    else if !TruthyParam(query, "id") then (db, Respond(400, "Order ID required"))
    else
      var status := Field(body, "status", JStr(""));
      if Empty(status) then (db, Respond(400, "Status required"))
      else if env.writeFails then (db, Respond(400, "Failed to update order"))
      else
        var target := RowId(ext, Param(query, "id"));
        var orders' := seq(|db.orders|, k requires 0 <= k < |db.orders| =>
          if db.orders[k].id == target then db.orders[k].(status := ToText(status)) else db.orders[k]);
        (db.(orders := orders'), Respond(200, "Order status updated"))
  }

  /** `$admin && $user['role'] === 'admin'`: only an admin who asks sees every order. */
  predicate SeesAllOrders(user: TokenCodec.Claim, query: map<string, string>) {
    TruthyParam(query, "admin") && user.role == "admin"
  }

  /** Every order whose purchaser exists, with the purchaser's name. */
  function AdminRows(orders: seq<Order>, users: seq<User>): (r: seq<AdminOrderRow>)
    ensures forall row :: row in r ==>
      && row.order in orders
      && FindUser(users, row.order.userId).Some?
      && row.userName == FindUser(users, row.order.userId).value.name
    ensures forall o :: o in orders && FindUser(users, o.userId).Some? ==> exists row :: row in r && row.order == o
  {
    if |orders| == 0 then []
    else
      var o := orders[0];
      var rest := AdminRows(orders[1..], users);
      assert forall x :: x in orders <==> x == o || x in orders[1..];
      match FindUser(users, o.userId)
      case Some(u) => [AdminOrderRow(o, u.name)] + rest
      case None => rest
  }

  /** The items of one order whose product still exists, with the product's name. */
  function ItemRows(items: seq<OrderItem>, products: seq<Product>, orderId: int): (r: seq<ItemRow>)
    ensures forall row :: row in r ==>
      row.item in items && row.item.orderId == orderId
      && FindProduct(products, row.item.productId).Some?
      && row.productName == FindProduct(products, row.item.productId).value.name
    ensures forall it :: it in items && it.orderId == orderId && FindProduct(products, it.productId).Some? ==>
      exists row :: row in r && row.item == it
  {
    if |items| == 0 then []
    else
      var it := items[0];
      var rest := ItemRows(items[1..], products, orderId);
      assert forall x :: x in items <==> x == it || x in items[1..];
      if it.orderId == orderId && FindProduct(products, it.productId).Some? then
        [ItemRow(it, FindProduct(products, it.productId).value.name)] + rest
      else rest
  }

  function OwnRows(orders: seq<Order>, items: seq<OrderItem>, products: seq<Product>): (r: seq<OwnOrderRow>)
    ensures |r| == |orders|
    ensures forall k :: 0 <= k < |r| ==> r[k].order == orders[k] && r[k].items == ItemRows(items, products, orders[k].id)
    ensures forall row :: row in r ==> row.order in orders && row.items == ItemRows(items, products, row.order.id)
  {
    seq(|orders|, k requires 0 <= k < |orders| => OwnOrderRow(orders[k], ItemRows(items, products, orders[k].id)))
  }

  /** GET: every order (newest first, with the purchaser's name) for an admin
      who passes `?admin`; otherwise the caller's own orders, newest first,
      each with its items. A non-admin passing `?admin` gets their own. */
  function ListOrders(db: Db, user: TokenCodec.Claim, query: map<string, string>): (r: Response)
    ensures r.code == 200
    ensures SeesAllOrders(user, query) ==>
      && r.body.AdminOrderList?
      && multiset(r.body.allOrders) == multiset(AdminRows(db.orders, db.users))
      && (forall row :: row in r.body.allOrders ==> row.order in db.orders && FindUser(db.users, row.order.userId).Some?)
      && forall i, j :: 0 <= i < j < |r.body.allOrders| ==>
           r.body.allOrders[i].order.createdAt >= r.body.allOrders[j].order.createdAt
    ensures !SeesAllOrders(user, query) ==>
      && r.body.OwnOrderList?
      && multiset(OrdersOf(r.body.ownOrders)) == multiset(Seqs.Filter(db.orders, (o: Order) => o.userId == user.id))
      && (forall row :: row in r.body.ownOrders ==> row.order in db.orders && row.order.userId == user.id)
      && (forall row :: row in r.body.ownOrders ==> row.items == ItemRows(db.items, db.products, row.order.id))
      && forall i, j :: 0 <= i < j < |r.body.ownOrders| ==>
           r.body.ownOrders[i].order.createdAt >= r.body.ownOrders[j].order.createdAt
  {
    if SeesAllOrders(user, query) then Response(200, AdminOrderList(AdminListing(db.orders, db.users)))
    else Response(200, OwnOrderList(OwnListing(db, user.id)))
  }

  /** `SELECT o.*, u.name ... JOIN users ... ORDER BY o.created_at DESC`. */
  function AdminListing(orders: seq<Order>, users: seq<User>): (r: seq<AdminOrderRow>)
    ensures multiset(r) == multiset(AdminRows(orders, users))
    ensures forall row :: row in r ==> row.order in orders && FindUser(users, row.order.userId).Some?
    ensures forall i, j :: 0 <= i < j < |r| ==> r[i].order.createdAt >= r[j].order.createdAt
  {
    var rows := AdminRows(orders, users);
    var created := (row: AdminOrderRow) => row.order.createdAt;
    NewestFirstOrdered(rows, created);
    var sorted := NewestFirst(rows, created);
    assert forall row :: row in sorted ==> row in multiset(rows);
    sorted
  }

  /** The caller's orders newest first, each with its joined items. */
  function OwnListing(db: Db, uid: int): (r: seq<OwnOrderRow>)
    ensures multiset(OrdersOf(r)) == multiset(Seqs.Filter(db.orders, (o: Order) => o.userId == uid))
    ensures forall row :: row in r ==> row.order in db.orders && row.order.userId == uid
    ensures forall row :: row in r ==> row.items == ItemRows(db.items, db.products, row.order.id)
    ensures forall i, j :: 0 <= i < j < |r| ==> r[i].order.createdAt >= r[j].order.createdAt
  {
    var mine := Seqs.Filter(db.orders, (o: Order) => o.userId == uid);
    var created := (o: Order) => o.createdAt;
    NewestFirstOrdered(mine, created);
    var own := NewestFirst(mine, created);
    var rows := OwnRows(own, db.items, db.products);
    assert OrdersOf(rows) == own;
    assert forall o :: o in own ==> o in mine by {
      forall o | o in own ensures o in mine {
        assert o in multiset(own);
      }
    }
    rows
  }

  function OrdersOf(rows: seq<OwnOrderRow>): (r: seq<Order>)
    ensures |r| == |rows|
  {
    seq(|rows|, k requires 0 <= k < |rows| => rows[k].order)
  }

  /** The request handler: authentication first, then the method. */
  function HandleOrders(db: Db, ext: Externals, env: Env, req: Request): (out: (Db, Response))
    ensures req.authorization.None? ==> out == (db, Respond(401, "No token provided"))
    ensures AuthGuard.Authenticate(req.authorization, env.now).Failure? ==> out.0 == db && out.1.code == 401
    ensures req.verb != POST && req.verb != PUT ==> out.0 == db
    ensures out.0.users == db.users && out.0.products == db.products
  {
    match AuthGuard.Authenticate(req.authorization, env.now)
    case Failure(resp) => (db, resp)
    case Success(user) =>
      match req.verb
      case GET => (db, ListOrders(db, user, req.query))
      case POST => PlaceOrder(db, ext, env, user, req.body)
      case PUT => UpdateStatus(db, ext, env, user, req.query, req.body)
      case _ => (db, MethodNotAllowed)
  }
}

=== FILE: php.dfy ===
/** The PHP value semantics the request handlers rely on: decoded JSON
    request values, `empty()`, the null-coalescing read `$data[k] ?? d`,
    truthiness of query parameters and the string cast that PDO applies to
    every parameter bound through `execute([...])`. */
module Php {
  import opened Wrappers
  import Text

  /** A scalar produced by `json_decode(..., true)`. */
  datatype Json = JNull | JBool(b: bool) | JInt(i: int) | JStr(s: string)

  /** PHP `empty($v)`: null, false, 0, "" and "0" are empty, nothing else is. */
  predicate Empty(v: Json): (r: bool)
    ensures r <==> v in {JNull, JBool(false), JInt(0), JStr(""), JStr("0")}
  {
    match v
    case JNull => true
    case JBool(b) => !b
    case JInt(i) => i == 0
    case JStr(s) => s == "" || s == "0"
  }

  /** `$data[key] ?? default`: an absent key and a JSON null both give the default. */
  function Field(data: map<string, Json>, key: string, default: Json): Json {
    if key in data && data[key] != JNull then data[key] else default
  }

  /** `$_GET[key] ?? null` checked for truthiness, as in `if ($id)`: query
      values are strings, and "" and "0" are falsy. */
  predicate TruthyParam(query: map<string, string>, key: string) {
    key in query && query[key] != "" && query[key] != "0"
  }

  /** The query value as a JSON string, when present. */
  function Param(query: map<string, string>, key: string): Json {
    if key in query then JStr(query[key]) else JNull
  }

  /** PHP's `(string)` cast of a scalar. */
  function ToText(v: Json): string {
    match v
    case JNull => ""
    case JBool(b) => if b then "1" else ""
    case JInt(i) => Text.IntToText(i)
    case JStr(s) => s
  }

  /** A value PHP treats as empty is never a string with content other than "0". */
  lemma EmptyText(v: Json)
    requires Empty(v)
    ensures ToText(v) == "" || ToText(v) == "0"
  {}

  /** A value PHP does not treat as empty casts to a string that is neither
      "" nor "0". */
  lemma NonEmptyText(v: Json)
    requires !Empty(v)
    ensures ToText(v) != "" && ToText(v) != "0"
  {
    if v.JInt? {
      var i := v.i;
      if i > 0 && i >= 10 {
        assert |Text.NatToText(i / 10)| > 0;
      }
    }
  }
}

=== FILE: product_detail.dfy ===
/** src/components/ProductDetail.js: the quantity picker, the stock badge
    and the add-to-cart button of one product's page. */
module ProductDetail {
  import opened Wrappers
  import Text

  function Max(a: int, b: int): int { if a < b then b else a }
  function Min(a: int, b: int): int { if a < b then a else b }

  /** The "-" button. */
  function Decrement(q: int): (r: int)
    ensures r >= 1
    ensures r <= q || q < 1
    ensures q > 1 ==> r == q - 1
  {
    Max(1, q - 1)
  }

  /** The "+" button: one more, but never above the stock. */
  function Increment(q: int, stock: int): (r: int)
    ensures r <= stock
    ensures q < stock ==> r == q + 1
  {
    Min(stock, q + 1)
  }

  /** Typing into the number field: `parseInt`, with NaN and 0 read as 1,
      then clamped between 1 and the stock. */
  function Typed(text: string, stock: int): (r: int)
    ensures r >= 1
    ensures stock >= 1 ==> r <= stock
    ensures Text.JsParseInt(text).None? || Text.JsParseInt(text) == Some(0) ==> r == 1
    ensures stock >= 1 && Text.JsParseInt(text).Some? && Text.JsParseInt(text).value > stock ==> r == stock
  {
    var parsed := match Text.JsParseInt(text) case None => 1 case Some(v) => if v == 0 then 1 else v;
    Max(1, Min(stock, parsed))
  }

  /** A typed number already in range is taken as it is. */
  lemma TypedInRangeKept(v: int, stock: int)
    requires 1 <= v <= stock
    ensures Typed(Text.IntToText(v), stock) == v
  {
    Text.IntTextRoundTrip(v);
  }

  /** The badge over the quantity picker. */
  function StockLabel(stock: int): (r: string)
    ensures r == "In Stock" <==> stock > 10
    ensures r == "Out of Stock" <==> stock <= 0
    ensures 0 < stock <= 10 ==> r == "Only " + Text.IntToText(stock) + " left"
  {
    if stock > 10 then "In Stock"
    else if stock > 0 then
      var r := "Only " + Text.IntToText(stock) + " left";
      assert r[1] == 'n';
      r
    else "Out of Stock"
  }

  /** The low-stock badge names the exact count: reading the number back
      out of it gives the stock. */
  lemma LowStockNamesCount(stock: int)
    requires 0 < stock <= 10
    ensures var r := StockLabel(stock);
      |r| > 10 && r[..5] == "Only " && r[|r| - 5..] == " left" && Text.JsParseInt(r[5..|r| - 5]) == Some(stock)
  {
    var digits := Text.IntToText(stock);
    var r := StockLabel(stock);
    assert r == "Only " + digits + " left";
    assert r[5..|r| - 5] == digits;
    Text.IntTextRoundTrip(stock);
  }

  /** `disabled={product.stock <= 0}`. */
  predicate CanAddToCart(stock: int) {
    stock > 0
  }

  /** The button is enabled exactly when the badge does not say the product
      is out of stock. */
  lemma ButtonAgreesWithBadge(stock: int)
    ensures CanAddToCart(stock) <==> StockLabel(stock) != "Out of Stock"
  {}

  datatype Input = Minus | Plus | Typing(text: string)

  function Apply(q: int, stock: int, i: Input): int {
    match i
    case Minus => Decrement(q)
    case Plus => Increment(q, stock)
    case Typing(t) => Typed(t, stock)
  }

  function ApplyAll(q: int, stock: int, inputs: seq<Input>): int
    decreases |inputs|
  {
    if |inputs| == 0 then q else ApplyAll(Apply(q, stock, inputs[0]), stock, inputs[1..])
  }

  /** Starting from 1, no sequence of clicks and typing takes the quantity
      out of [1, stock] while the product is in stock. */
  lemma {:induction false} QuantityStaysInRange(q: int, stock: int, inputs: seq<Input>)
    requires 1 <= q <= stock
    ensures 1 <= ApplyAll(q, stock, inputs) <= stock
    decreases |inputs|
  {
    if |inputs| > 0 {
      QuantityStaysInRange(Apply(q, stock, inputs[0]), stock, inputs[1..]);
    }
  }

  /** At or above the stock, "+" pins the quantity to the stock. With
      nothing in stock that is 0, although "-" and typing never go below 1. */
  lemma PlusAtStock(q: int, stock: int)
    requires stock <= q
    ensures Increment(q, stock) == stock
  {}
}

=== FILE: products.dfy ===
/** backend/api/products.php: anyone may read the catalog; creating,
    changing and deleting a product needs an administrator's token. Failed
    writes are caught and answered with 400. */
module Products {
  import opened Wrappers
  import opened Php
  import Seqs
  import opened Store
  import AuthGuard
  import TokenCodec

  /** The editable columns of a product as a request body gives them, each
      defaulting to the empty string. */
  datatype Fields = Fields(name: Json, description: Json, price: Json, stock: Json, imageUrl: Json)

  function ReadFields(body: map<string, Json>): Fields {
    Fields(
      Field(body, "name", JStr("")),
      Field(body, "description", JStr("")),
      Field(body, "price", JStr("")),
      Field(body, "stock", JStr("")),
      Field(body, "image_url", JStr("")))
  }

  /** `empty($name) || empty($price) || empty($stock)`: a price or a stock of
      0 counts as missing, as does the string "0". */
  predicate Incomplete(f: Fields) {
    Empty(f.name) || Empty(f.price) || Empty(f.stock)
  }

  /** The row the five bound values become once the columns convert them. */
  function Stored(ext: Externals, f: Fields, id: nat, createdAt: int): (p: Product)
    ensures p.id == id && p.createdAt == createdAt
    ensures p.name == ToText(f.name) && p.description == ToText(f.description) && p.imageUrl == ToText(f.imageUrl)
    ensures p.price == ext.priceColumn(f.price) && p.stock == ext.intColumn(f.stock)
  {
    Product(id, ToText(f.name), ToText(f.description), ext.priceColumn(f.price), ext.intColumn(f.stock), ToText(f.imageUrl), createdAt)
  }

  /** GET: with a truthy `?id` the first product with that id, or 404;
      without one the whole catalog, newest first. */
  function ReadCatalog(db: Db, ext: Externals, query: map<string, string>): (r: Response)
    ensures TruthyParam(query, "id") ==>
      var wanted := RowId(ext, Param(query, "id"));
      && (r.code == 200 <==> exists p :: p in db.products && p.id == wanted)
      && (r.code == 200 ==> r.body.ProductFound? && r.body.product in db.products && r.body.product.id == wanted)
      && (r.code != 200 ==> r == Respond(404, "Product not found"))
    ensures !TruthyParam(query, "id") ==>
      && r.code == 200 && r.body.ProductList?
      && multiset(r.body.products) == multiset(db.products)
      && forall i, j :: 0 <= i < j < |r.body.products| ==> r.body.products[i].createdAt >= r.body.products[j].createdAt
  {
    if TruthyParam(query, "id") then
      match FindProduct(db.products, RowId(ext, Param(query, "id")))
      case Some(p) => Response(200, ProductFound(p))
      case None => Respond(404, "Product not found")
    else
      var created := (p: Product) => p.createdAt;
      NewestFirstOrdered(db.products, created);
      Response(200, ProductList(NewestFirst(db.products, created)))
  }

  /** POST, after the admin check: inserts one product with a fresh id. */
  function CreateProduct(db: Db, ext: Externals, env: Env, body: map<string, Json>): (out: (Db, Response))
    ensures Incomplete(ReadFields(body)) ==> out == (db, Respond(400, "Name, price, and stock are required"))
    ensures !Incomplete(ReadFields(body)) && env.writeFails ==> out == (db, Respond(400, "Failed to add product"))
    ensures out.1.code == 200 <==> !Incomplete(ReadFields(body)) && !env.writeFails
    ensures out.1.code != 200 ==> out.0 == db
    ensures out.1.code == 200 ==>
      && out.1 == Response(200, ProductCreated(db.nextId))
      && |out.0.products| == |db.products| + 1 && out.0.products[..|db.products|] == db.products
      && out.0 == db.(products := out.0.products, nextId := db.nextId + 1)
    ensures out.1.code == 200 && |out.0.products| == |db.products| + 1 ==>
      var f := ReadFields(body);
      var added := out.0.products[|db.products|];
      && added.id == db.nextId && added.createdAt == env.now
      && added.name == ToText(f.name) && added.name != "" && added.name != "0"
      && added.price == ext.priceColumn(f.price) && added.stock == ext.intColumn(f.stock)
      && added.description == ToText(f.description) && added.imageUrl == ToText(f.imageUrl)
  {
    var f := ReadFields(body);
    if Incomplete(f) then (db, Respond(400, "Name, price, and stock are required"))
    else if env.writeFails then (db, Respond(400, "Failed to add product"))
    else
      NonEmptyText(f.name);
      var p := Stored(ext, f, db.nextId, env.now);
      (db.(products := db.products + [p], nextId := db.nextId + 1), Response(200, ProductCreated(db.nextId)))
  }

  /** PUT, after the admin check: overwrites all five columns of every
      product with the id given in `?id`. No row matching is not an error. */
  function UpdateProduct(db: Db, ext: Externals, env: Env, query: map<string, string>, body: map<string, Json>): (out: (Db, Response))
    ensures !TruthyParam(query, "id") ==> out == (db, Respond(400, "Product ID required"))
    ensures TruthyParam(query, "id") && env.writeFails ==> out == (db, Respond(400, "Failed to update product"))
    ensures out.1.code == 200 <==> TruthyParam(query, "id") && !env.writeFails
    ensures out.1.code != 200 ==> out.0 == db
    ensures out.1.code == 200 ==>
      var target := RowId(ext, Param(query, "id"));
      var f := ReadFields(body);
      && out.1 == Respond(200, "Product updated successfully")
      && out.0 == db.(products := out.0.products)
      && |out.0.products| == |db.products|
      && forall k :: 0 <= k < |db.products| ==>
           if db.products[k].id == target
           then out.0.products[k] == Stored(ext, f, target, db.products[k].createdAt)
           else out.0.products[k] == db.products[k]
  {
    if !TruthyParam(query, "id") then (db, Respond(400, "Product ID required"))
    else if env.writeFails then (db, Respond(400, "Failed to update product"))
    else
      var target := RowId(ext, Param(query, "id"));
      var f := ReadFields(body);
      var products' := seq(|db.products|, k requires 0 <= k < |db.products| =>
        var p := db.products[k];
        if p.id == target then Stored(ext, f, p.id, p.createdAt) else p);
      (db.(products := products'), Respond(200, "Product updated successfully"))
  }

  /** DELETE, after the admin check: removes every product with the id given
      in `?id`. Cart lines and order items that name it are left in place. */
  function DeleteProduct(db: Db, ext: Externals, env: Env, query: map<string, string>): (out: (Db, Response))
    ensures !TruthyParam(query, "id") ==> out == (db, Respond(400, "Product ID required"))
    ensures TruthyParam(query, "id") && env.writeFails ==> out == (db, Respond(400, "Failed to delete product"))
    ensures out.1.code == 200 <==> TruthyParam(query, "id") && !env.writeFails
    ensures out.1.code != 200 ==> out.0 == db
    ensures out.1.code == 200 ==>
      var target := RowId(ext, Param(query, "id"));
      && out.1 == Respond(200, "Product deleted successfully")
      && out.0 == db.(products := out.0.products)
      && Seqs.IsSubsequence(out.0.products, db.products)
      && forall p :: p in out.0.products <==> p in db.products && p.id != target
  {
    if !TruthyParam(query, "id") then (db, Respond(400, "Product ID required"))
    else if env.writeFails then (db, Respond(400, "Failed to delete product"))
    else
      var target := RowId(ext, Param(query, "id"));
      var keep := (p: Product) => p.id != target;
      Seqs.FilterIsSubsequence(db.products, keep);
      (db.(products := Seqs.Filter(db.products, keep)), Respond(200, "Product deleted successfully"))
  }

  /** A write method: authenticate, then require the admin role. */
  function AdminWrite(db: Db, ext: Externals, env: Env, req: Request): (out: (Db, Response))
    requires req.verb == POST || req.verb == PUT || req.verb == DELETE
    ensures AuthGuard.Authenticate(req.authorization, env.now).Failure? ==> out.0 == db && out.1.code == 401
    ensures AuthGuard.Authenticate(req.authorization, env.now).Success? ==>
      (AuthGuard.Authenticate(req.authorization, env.now).value.role != "admin" <==> out == (db, AdminRequired))
  {
    match AuthGuard.Authenticate(req.authorization, env.now)
    case Failure(resp) => (db, resp)
    case Success(user) =>
      if user.role != "admin" then (db, AdminRequired)
      else if req.verb == POST then CreateProduct(db, ext, env, req.body)
      else if req.verb == PUT then UpdateProduct(db, ext, env, req.query, req.body)
      else DeleteProduct(db, ext, env, req.query)
  }

  /** The request handler. Reading needs no token; any other method than the
      four is refused before authentication. */
  function HandleProducts(db: Db, ext: Externals, env: Env, req: Request): (out: (Db, Response))
    ensures req.verb == GET ==> out == (db, ReadCatalog(db, ext, req.query))
    ensures out.0 == db.(products := out.0.products, nextId := out.0.nextId)
    ensures !req.verb.GET? && !req.verb.POST? && !req.verb.PUT? && !req.verb.DELETE? ==> out == (db, MethodNotAllowed)
    ensures out.0 != db ==>
      && req.verb != GET
      && AuthGuard.Authenticate(req.authorization, env.now).Success?
      && AuthGuard.Authenticate(req.authorization, env.now).value.role == "admin"
  {
    match req.verb
    case GET => (db, ReadCatalog(db, ext, req.query))
    case POST => AdminWrite(db, ext, env, req)
    case PUT => AdminWrite(db, ext, env, req)
    case DELETE => AdminWrite(db, ext, env, req)
    case _ => (db, MethodNotAllowed)
  }

  /** A product is created with a fresh id, so reading it back by that id
      finds exactly the stored row. */
  lemma CreatedIsFound(db: Db, ext: Externals, env: Env, body: map<string, Json>)
    requires Fresh(db)
    requires CreateProduct(db, ext, env, body).1.code == 200
    ensures var db' := CreateProduct(db, ext, env, body).0;
      FindProduct(db'.products, db.nextId) == Some(db'.products[|db.products|])
  {
    var db' := CreateProduct(db, ext, env, body).0;
    FindAppended(db.products, db'.products[|db.products|]);
    assert db'.products == db.products + [db'.products[|db.products|]];
  }

  lemma {:induction false} FindAppended(products: seq<Product>, p: Product)
    requires forall q :: q in products ==> q.id != p.id
    ensures FindProduct(products + [p], p.id) == Some(p)
  {
    if |products| > 0 {
      assert (products + [p])[1..] == products[1..] + [p];
      FindAppended(products[1..], p);
    } else {
      assert products + [p] == [p];
    }
  }

  /** After a successful update, reading the product by its id gives the new
      column values, while its id and creation time stay. */
  lemma UpdatedIsFound(db: Db, ext: Externals, env: Env, query: map<string, string>, body: map<string, Json>, old_: Product)
    requires UpdateProduct(db, ext, env, query, body).1.code == 200
    requires FindProduct(db.products, RowId(ext, Param(query, "id"))) == Some(old_)
    ensures FindProduct(UpdateProduct(db, ext, env, query, body).0.products, old_.id)
         == Some(Stored(ext, ReadFields(body), old_.id, old_.createdAt))
  {
    var target := RowId(ext, Param(query, "id"));
    FindUpdated(db.products, UpdateProduct(db, ext, env, query, body).0.products, target, ext, ReadFields(body));
  }

  lemma {:induction false} FindUpdated(before: seq<Product>, after: seq<Product>, target: int, ext: Externals, f: Fields)
    requires |after| == |before|
    requires forall k :: 0 <= k < |before| ==>
      if before[k].id == target then after[k] == Stored(ext, f, target, before[k].createdAt) else after[k] == before[k]
    requires FindProduct(before, target).Some?
    ensures FindProduct(after, target) == Some(Stored(ext, f, target, FindProduct(before, target).value.createdAt))
  {
    if before[0].id != target {
      FindUpdated(before[1..], after[1..], target, ext, f);
    }
  }

  /** After a successful delete no product has that id any more. */
  lemma DeletedIsGone(db: Db, ext: Externals, env: Env, query: map<string, string>)
    requires DeleteProduct(db, ext, env, query).1.code == 200
    ensures FindProduct(DeleteProduct(db, ext, env, query).0.products, RowId(ext, Param(query, "id"))).None?
  {}

  /** `empty()` turns a product with no stock into an incomplete request. */
  lemma ZeroStockRejected(db: Db, ext: Externals, env: Env, body: map<string, Json>)
    requires "stock" in body && body["stock"] == JInt(0)
    ensures CreateProduct(db, ext, env, body) == (db, Respond(400, "Name, price, and stock are required"))
  {}
}

=== FILE: register_form.dfy ===
/** src/pages/Register.js: the checks the registration form runs before it
    posts, one message at most per field, and the body it posts. */
module RegisterForm {
  import opened Wrappers
  import opened Text
  import opened Php
  import Store
  import Accounts

  datatype Form = Form(name: string, email: string, password: string, confirmPassword: string)

  /** One optional message per field; an absent field has no error. */
  datatype Errors = Errors(name: Option<string>, email: Option<string>, password: Option<string>, confirmPassword: Option<string>)

  predicate NoErrors(e: Errors) {
    e.name.None? && e.email.None? && e.password.None? && e.confirmPassword.None?
  }

  // ----- The e-mail pattern /\S+@\S+\.\S+/, unanchored -----

  /** An '@' at `p` with a non-space character before it, followed by
      non-space characters up to (not including) `i`. */
  ghost predicate LiveAt(s: string, p: int, i: int) {
    0 < p < i <= |s| && s[p] == '@' && !IsJsSpace(s[p - 1]) && forall k :: p < k < i ==> !IsJsSpace(s[k])
  }

  /** The pattern matches with its '@' at `p` and its '.' at `q`. */
  ghost predicate MatchAt(s: string, p: int, q: int) {
    LiveAt(s, p, q) && p + 1 < q && q + 1 < |s| && s[q] == '.' && !IsJsSpace(s[q + 1])
  }

  ghost predicate EmailShape(s: string) {
    exists p, q :: MatchAt(s, p, q)
  }

  /** How the live '@' positions change when one more character is read. */
  lemma LiveStep(s: string, i: int, j: int)
    requires 0 <= i < |s| && j == i + 1
    ensures forall p :: LiveAt(s, p, j) <==>
      (p < i && LiveAt(s, p, i) && !IsJsSpace(s[i])) || (p == i && 0 < i && s[i] == '@' && !IsJsSpace(s[i - 1]))
  {
    forall p ensures LiveAt(s, p, j) <==>
      (p < i && LiveAt(s, p, i) && !IsJsSpace(s[i])) || (p == i && 0 < i && s[i] == '@' && !IsJsSpace(s[i - 1]))
    {
      if LiveAt(s, p, j) && p < i {
        assert !IsJsSpace(s[i]);
      }
    }
  }

  /** `/\S+@\S+\.\S+/.test(s)`: one left-to-right pass that remembers the
      earliest '@' still able to start a match. */
  method TestEmail(s: string) returns (b: bool)
    ensures b <==> EmailShape(s)
  {
    var at := -1;
    var i := 0;
    while i < |s|
      invariant 0 <= i <= |s|
      invariant at == -1 ==> forall p :: !LiveAt(s, p, i)
      invariant at != -1 ==> LiveAt(s, at, i) && forall p :: LiveAt(s, p, i) ==> at <= p
      invariant forall p, q :: q < i ==> !MatchAt(s, p, q)
    {
      var c := s[i];
      LiveStep(s, i, i + 1);
      if IsJsSpace(c) {
        at := -1;
      } else {
        if c == '.' && at != -1 && at + 1 < i && i + 1 < |s| && !IsJsSpace(s[i + 1]) {
          assert MatchAt(s, at, i);
          return true;
        }
        if c == '@' && at == -1 && i > 0 && !IsJsSpace(s[i - 1]) {
          at := i;
        }
      }
      i := i + 1;
    }
    return false;
  }

  // ----- The four field checks -----

  function NameError(name: string): (r: Option<string>)
    ensures r.None? <==> Utf16Length(Trim(name)) >= 2
    ensures r.Some? ==> r.value in {"Name is required", "Name must be at least 2 characters"}
  {
    if Trim(name) == "" then Some("Name is required")
    else if Utf16Length(Trim(name)) < 2 then Some("Name must be at least 2 characters")
    else None
  }

  /** The blank check trims; the pattern is matched against the untrimmed text. */
  ghost function EmailError(email: string): (r: Option<string>)
    ensures r.None? <==> EmailShape(email)
  {
    if Trim(email) == "" then Some("Email is required")
    else if !EmailShape(email) then Some("Email is invalid")
    else None
  }

  /** The password is not trimmed: six spaces are a valid password. */
  function PasswordError(password: string): (r: Option<string>)
    ensures r.None? <==> Utf16Length(password) >= 6
  {
    if password == "" then Some("Password is required")
    else if Utf16Length(password) < 6 then Some("Password must be at least 6 characters")
    else None
  }

  function ConfirmError(password: string, confirm: string): (r: Option<string>)
    ensures r.None? <==> confirm != "" && confirm == password
  {
    if confirm == "" then Some("Please confirm your password")
    else if password != confirm then Some("Passwords do not match")
    else None
  }

  /** The form the checks accept, stated field by field. */
  ghost predicate Acceptable(f: Form) {
    && Utf16Length(Trim(f.name)) >= 2
    && EmailShape(f.email)
    && Utf16Length(f.password) >= 6
    && f.confirmPassword == f.password
  }

  /** `validateForm`: every field is checked and gets at most one message;
      the form may be posted exactly when no field has one. */
  method Validate(f: Form) returns (errors: Errors, ok: bool)
    ensures errors.name == NameError(f.name)
    ensures errors.email == EmailError(f.email)
    ensures errors.password == PasswordError(f.password)
    ensures errors.confirmPassword == ConfirmError(f.password, f.confirmPassword)
    ensures ok <==> NoErrors(errors)
    ensures ok <==> Acceptable(f)
  {
    var emailError: Option<string>;
    if Trim(f.email) == "" {
      emailError := Some("Email is required");
    } else {
      var shaped := TestEmail(f.email);
      emailError := if shaped then None else Some("Email is invalid");
    }
    errors := Errors(NameError(f.name), emailError, PasswordError(f.password), ConfirmError(f.password, f.confirmPassword));
    ok := NoErrors(errors);
    if f.password == "" {
      assert Utf16Length(f.password) == 0;
    }
  }

  /** The posted body: the form without `confirmPassword`. */
  function Submission(f: Form): (body: map<string, Json>)
    ensures body.Keys == {"name", "email", "password"}
    ensures body["name"] == JStr(f.name) && body["email"] == JStr(f.email) && body["password"] == JStr(f.password)
  {
    map["name" := JStr(f.name), "email" := JStr(f.email), "password" := JStr(f.password)]
  }

  lemma TrimKeepsZero()
    ensures Trim("0") == "0"
  {
    assert TrimStart("0") == "0";
    assert TrimEnd("0") == "0";
  }

  /** A form the page accepts is never refused by the server for a missing
      field: all three posted values are non-empty in PHP's sense. */
  lemma AcceptedFormHasAllFields(f: Form)
    requires Acceptable(f)
    ensures !Empty(Submission(f)["name"]) && !Empty(Submission(f)["email"]) && !Empty(Submission(f)["password"])
  {
    if f.name == "0" {
      TrimKeepsZero();
    }
    var p, q :| MatchAt(f.email, p, q);
  }

  lemma AcceptedFormRegisters(f: Form, db: Store.Db, ext: Store.Externals, env: Store.Env)
    requires Acceptable(f)
    ensures Accounts.Register(db, ext, env, Submission(f)).1 != Store.Respond(400, "All fields are required")
  {
    AcceptedFormHasAllFields(f);
  }
}

=== FILE: seqs.dfy ===
/** Order-preserving selection from a sequence, the shape of a SQL `WHERE`
    over a table and of JavaScript's `Array.prototype.filter`. */
module Seqs {

  function Filter<T(!new)>(s: seq<T>, keep: T -> bool): (r: seq<T>)
    ensures |r| <= |s|
    ensures forall i :: 0 <= i < |r| ==> keep(r[i])
    ensures forall x :: x in r <==> x in s && keep(x)
  {
    if |s| == 0 then []
    else
      assert s == [s[0]] + s[1..];
      (if keep(s[0]) then [s[0]] else []) + Filter(s[1..], keep)
  }

  /** Filtering keeps every copy of a kept value and no copy of another. */
  lemma {:induction false} FilterMultiset<T(!new)>(s: seq<T>, keep: T -> bool)
    ensures forall x :: multiset(Filter(s, keep))[x] == if keep(x) then multiset(s)[x] else 0
  {
    if |s| > 0 {
      FilterMultiset(s[1..], keep);
      assert s == [s[0]] + s[1..];
      var head := if keep(s[0]) then [s[0]] else [];
      assert Filter(s, keep) == head + Filter(s[1..], keep);
    }
  }

  /** `a` is `b` with some elements deleted, the others kept in order. */
  predicate IsSubsequence<T(==)>(a: seq<T>, b: seq<T>)
    decreases |b|
  {
    if |a| == 0 then true
    else if |b| == 0 then false
    else if a[0] == b[0] then IsSubsequence(a[1..], b[1..])
    else IsSubsequence(a, b[1..])
  }

  lemma {:induction false} SubsequenceOfTail<T>(a: seq<T>, b: seq<T>)
    requires |b| > 0 && IsSubsequence(a, b[1..])
    ensures IsSubsequence(a, b)
    decreases |b|, 0
  {
    if |a| > 0 && a[0] == b[0] {
      SubsequenceDropFirst(a, b[1..]);
    }
  }

  lemma {:induction false} SubsequenceDropFirst<T>(a: seq<T>, b: seq<T>)
    requires |a| > 0 && IsSubsequence(a, b)
    ensures IsSubsequence(a[1..], b)
    decreases |b|, 1
  {
    if a[0] == b[0] {
      SubsequenceOfTail(a[1..], b);
    } else {
      SubsequenceDropFirst(a, b[1..]);
      SubsequenceOfTail(a[1..], b);
    }
  }

  /** Deleting from a subsequence gives a subsequence. */
  lemma {:induction false} SubsequenceTrans<T>(a: seq<T>, b: seq<T>, c: seq<T>)
    requires IsSubsequence(a, b) && IsSubsequence(b, c)
    ensures IsSubsequence(a, c)
    decreases |c|
  {
    if |a| > 0 {
      if b[0] == c[0] {
        if a[0] == b[0] {
          SubsequenceTrans(a[1..], b[1..], c[1..]);
        } else {
          SubsequenceTrans(a, b[1..], c[1..]);
          SubsequenceOfTail(a, c);
        }
      } else {
        SubsequenceTrans(a, b, c[1..]);
        SubsequenceOfTail(a, c);
      }
    }
  }

  /** Filtering only deletes: the result is a subsequence of the input. */
  lemma {:induction false} FilterIsSubsequence<T(!new)>(s: seq<T>, keep: T -> bool)
    ensures IsSubsequence(Filter(s, keep), s)
  {
    if |s| > 0 {
      FilterIsSubsequence(s[1..], keep);
      var r := Filter(s, keep);
      if keep(s[0]) {
        assert r[1..] == Filter(s[1..], keep);
      } else {
        assert r == Filter(s[1..], keep);
        SubsequenceOfTail(r, s);
      }
    }
  }

  /** Deleting nothing is a subsequence too. */
  lemma {:induction false} SubsequenceRefl<T>(s: seq<T>)
    ensures IsSubsequence(s, s)
    decreases |s|
  {
    if |s| > 0 {
      SubsequenceRefl(s[1..]);
    }
  }
}

=== FILE: sorting.dfy ===
/** A stable insertion sort driven by a JavaScript-style comparator
    (negative: the first argument goes first; zero: keep input order), the
    contract of `Array.prototype.sort` since ES2019 and the shape of a SQL
    `ORDER BY`. */
module Sorting {

  /** Puts `x` before the first element it does not compare greater than. */
  function Insert<T(!new)>(x: T, s: seq<T>, cmp: (T, T) -> int): (r: seq<T>)
    ensures |r| == |s| + 1
    ensures multiset(r) == multiset(s) + multiset{x}
  {
    if |s| == 0 || cmp(x, s[0]) <= 0 then [x] + s
    else
      assert s == [s[0]] + s[1..];
      [s[0]] + Insert(x, s[1..], cmp)
  }

  function Sort<T(!new)>(s: seq<T>, cmp: (T, T) -> int): (r: seq<T>)
    ensures |r| == |s|
    ensures multiset(r) == multiset(s)
  {
    if |s| == 0 then []
    else
      assert s == [s[0]] + s[1..];
      Insert(s[0], Sort(s[1..], cmp), cmp)
  }

  /** The keys never decrease along the sequence. */
  ghost predicate SortedBy<T>(s: seq<T>, key: T -> int) {
    forall i, j :: 0 <= i < j < |s| ==> key(s[i]) <= key(s[j])
  }

  /** The comparator orders exactly as the key does. */
  ghost predicate ComparesBy<T(!new)>(cmp: (T, T) -> int, key: T -> int) {
    forall a, b :: cmp(a, b) <= 0 <==> key(a) <= key(b)
  }

  /** Every element of the insertion result is `x` or an element of `s`. */
  lemma InsertMembers<T(!new)>(x: T, s: seq<T>, cmp: (T, T) -> int)
    ensures forall y :: y in Insert(x, s, cmp) ==> y == x || y in s
  {
    var r := Insert(x, s, cmp);
    forall y | y in r ensures y == x || y in s {
      assert y in multiset(r);
    }
  }

  /** An element no greater than `x` and no greater than anything in a
      sorted `s` may lead the insertion result. */
  lemma LeadsInsert<T(!new)>(h: T, x: T, s: seq<T>, cmp: (T, T) -> int, key: T -> int)
    requires key(h) <= key(x)
    requires forall k :: 0 <= k < |s| ==> key(h) <= key(s[k])
    ensures forall y :: y in Insert(x, s, cmp) ==> key(h) <= key(y)
  {
    InsertMembers(x, s, cmp);
  }

  lemma {:induction false} InsertSorted<T(!new)>(x: T, s: seq<T>, cmp: (T, T) -> int, key: T -> int)
    requires ComparesBy(cmp, key)
    requires SortedBy(s, key)
    ensures SortedBy(Insert(x, s, cmp), key)
  {
    if |s| > 0 && cmp(x, s[0]) > 0 {
      var t := Insert(x, s[1..], cmp);
      InsertSorted(x, s[1..], cmp, key);
      assert key(s[0]) <= key(x);
      assert forall k :: 0 <= k < |s[1..]| ==> s[1..][k] == s[k + 1];
      LeadsInsert(s[0], x, s[1..], cmp, key);
      var r := Insert(x, s, cmp);
      assert r == [s[0]] + t;
      forall i, j | 0 <= i < j < |r| ensures key(r[i]) <= key(r[j]) {
        assert r[j] == t[j - 1];
        if i > 0 {
          assert r[i] == t[i - 1];
        } else {
          assert r[j] in t;
        }
      }
    }
  }

  /** A comparator that agrees with a key yields a list ordered by that key. */
  lemma {:induction false} SortSorted<T(!new)>(s: seq<T>, cmp: (T, T) -> int, key: T -> int)
    requires ComparesBy(cmp, key)
    ensures SortedBy(Sort(s, cmp), key)
  {
    if |s| > 0 {
      SortSorted(s[1..], cmp, key);
      InsertSorted(s[0], Sort(s[1..], cmp), cmp, key);
    }
  }

  /** A comparator that reports every pair as equal leaves the order as it was. */
  lemma {:induction false} SortKeepsTies<T(!new)>(s: seq<T>, cmp: (T, T) -> int)
    requires forall i, j :: 0 <= i < |s| && 0 <= j < |s| ==> cmp(s[i], s[j]) == 0
    ensures Sort(s, cmp) == s
  {
    if |s| > 0 {
      SortKeepsTies(s[1..], cmp);
      assert Sort(s[1..], cmp) == s[1..];
      if |s| > 1 {
        assert cmp(s[0], s[1]) == 0;
      }
    }
  }
}

=== FILE: store.dfy ===
/** The relational state the handlers read and write, as immutable tables,
    plus the request, response and environment records every handler step
    takes. Rows keep insertion order; one counter hands out fresh ids for
    every table, standing in for AUTO_INCREMENT. */
module Store {
  import opened Wrappers
  import opened Php
  import Seqs
  import Sorting
  import TokenCodec

  datatype User = User(id: nat, name: string, email: string, passwordHash: string, role: string, createdAt: int)

  /** Prices are integer cents. */
  datatype Product = Product(id: nat, name: string, description: string, price: int, stock: int, imageUrl: string, createdAt: int)

  datatype CartLine = CartLine(id: nat, userId: int, productId: int, quantity: int)

  datatype Order = Order(id: nat, userId: int, total: int, status: string, createdAt: int)

  /** `price` is the unit price copied from the catalog when the order was placed. */
  datatype OrderItem = OrderItem(id: nat, orderId: nat, productId: int, quantity: int, price: int)

  datatype Db = Db(
    users: seq<User>,
    products: seq<Product>,
    cart: seq<CartLine>,
    orders: seq<Order>,
    items: seq<OrderItem>,
    nextId: nat)

  /** Every id handed out so far, and every order an item points to, lies
      below the counter, so the next id is fresh. */
  ghost predicate Fresh(db: Db) {
    && (forall u :: u in db.users ==> u.id < db.nextId)
    && (forall p :: p in db.products ==> p.id < db.nextId)
    && (forall l :: l in db.cart ==> l.id < db.nextId)
    && (forall o :: o in db.orders ==> o.id < db.nextId)
    && (forall it :: it in db.items ==> it.id < db.nextId && it.orderId < db.nextId)
  }

  /** At most one cart line per (user, product). */
  ghost predicate CartUnique(cart: seq<CartLine>) {
    forall i, j :: 0 <= i < j < |cart| ==>
      cart[i].userId != cart[j].userId || cart[i].productId != cart[j].productId
  }

  /** `SELECT * FROM products WHERE id = ?` fetched once: the first match. */
  function FindProduct(products: seq<Product>, id: int): (r: Option<Product>)
    ensures r.Some? ==> r.value in products && r.value.id == id
    ensures r.None? ==> forall p :: p in products ==> p.id != id
  {
    if |products| == 0 then None
    else if products[0].id == id then Some(products[0])
    else FindProduct(products[1..], id)
  }

  function FindUser(users: seq<User>, id: int): (r: Option<User>)
    ensures r.Some? ==> r.value in users && r.value.id == id
    ensures r.None? ==> forall u :: u in users ==> u.id != id
  {
    if |users| == 0 then None
    else if users[0].id == id then Some(users[0])
    else FindUser(users[1..], id)
  }

  /** `ORDER BY created_at DESC`, ties kept in table order. */
  function NewestFirst<T(!new)>(rows: seq<T>, created: T -> int): (r: seq<T>)
    ensures multiset(r) == multiset(rows)
  {
    Sorting.Sort(rows, (a, b) => created(b) - created(a))
  }

  /** The newest row comes first: creation times never increase. */
  lemma NewestFirstOrdered<T(!new)>(rows: seq<T>, created: T -> int)
    ensures forall i, j :: 0 <= i < j < |NewestFirst(rows, created)| ==>
      created(NewestFirst(rows, created)[i]) >= created(NewestFirst(rows, created)[j])
  {
    var key := (x: T) => -created(x);
    Sorting.SortSorted(rows, (a, b) => created(b) - created(a), key);
  }

  // ----- HTTP requests and responses -----

  datatype Method = GET | POST | PUT | DELETE | OtherMethod(name: string)

  /** A request as the handlers see it: the method, `$_GET`, the decoded JSON
      body (a body that is not a JSON object reads as the empty map) and the
      `Authorization` header. */
  datatype Request = Request(
    verb: Method,
    query: map<string, string>,
    body: map<string, Json>,
    authorization: Option<string>)

  /** A cart line joined with its product's name, price and image. */
  datatype CartEntry = CartEntry(line: CartLine, name: string, price: int, imageUrl: string)

  /** An order with the purchaser's name, as the admin listing shows it. */
  datatype AdminOrderRow = AdminOrderRow(order: Order, userName: string)

  /** An order item joined with its product's name. */
  datatype ItemRow = ItemRow(item: OrderItem, productName: string)

  /** One of the caller's orders with its items. */
  datatype OwnOrderRow = OwnOrderRow(order: Order, items: seq<ItemRow>)

  /** A user as the admin listing shows it: the password hash is not selected. */
  datatype UserRow = UserRow(id: nat, name: string, email: string, role: string, createdAt: int)

  datatype Body =
    | Msg(text: string)
    | OrderPlaced(orderId: nat)
    | ProductCreated(productId: nat)
    | ProductFound(product: Product)
    | ProductList(products: seq<Product>)
    | CartList(entries: seq<CartEntry>)
    | AdminOrderList(allOrders: seq<AdminOrderRow>)
    | OwnOrderList(ownOrders: seq<OwnOrderRow>)
    | UserList(users: seq<UserRow>)
    | Session(token: string, user: TokenCodec.Claim, message: Option<string>)
    | Diagnostic
    | Uncaught

  datatype Response = Response(code: int, body: Body)

  function Respond(code: int, text: string): Response {
    Response(code, Msg(text))
  }

  const AdminRequired := Respond(403, "Admin access required")
  const MethodNotAllowed := Respond(405, "Method not allowed")

  /** What a request sees of the outside world: the clock (`time()`), whether
      the database rejects the next write (a constraint violation or a lost
      connection), and the salt `password_hash` draws. */
  datatype Env = Env(now: int, writeFails: bool, salt: string)

  /** Collaborators whose behaviour the handlers' code does not show:
      how the schema stores a bound JSON value in an INT or a DECIMAL column
      (prices in cents), the column defaults for an order's status and a
      user's role, and PHP's `password_hash` / `password_verify`. */
  datatype Externals = Externals(
    intColumn: Json -> int,
    priceColumn: Json -> int,
    defaultStatus: string,
    defaultRole: string,
    hash: (string, string) -> string,
    verify: (string, string) -> bool)

  /** The row id a request value names, compared as the database compares an
      INT column with a bound string. */
  function RowId(ext: Externals, v: Json): int {
    ext.intColumn(v)
  }
}

=== FILE: text.dfy ===
/** String operations of the two runtimes: JavaScript's `toLowerCase`,
    `includes`, `trim`, `length` and `parseInt`, and PHP's `str_replace`
    with an empty replacement. */
module Text {
  import opened Wrappers

  /** Lower-casing of one character; only the ASCII letters A-Z change. */
  function LowerChar(c: char): char {
    if 'A' <= c <= 'Z' then (c as int + 32) as char else c
  }

  function Lower(s: string): (r: string)
    ensures |r| == |s|
    ensures forall i :: 0 <= i < |s| ==> r[i] == LowerChar(s[i])
  {
    seq(|s|, i requires 0 <= i < |s| => LowerChar(s[i]))
  }

  /** `needle` occurs in `hay` starting at offset `i`. */
  ghost predicate OccursAt(hay: string, needle: string, i: int) {
    0 <= i && i + |needle| <= |hay| && hay[i..i + |needle|] == needle
  }

  /** `hay.includes(needle)`: the empty needle is found in every string. */
  predicate Contains(hay: string, needle: string)
    decreases |hay|
  {
    |needle| <= |hay| && (hay[..|needle|] == needle || Contains(hay[1..], needle))
  }

  /** The scan agrees with the definition of a substring occurrence. */
  lemma {:induction false} ContainsIff(hay: string, needle: string)
    ensures Contains(hay, needle) <==> exists i :: OccursAt(hay, needle, i)
    decreases |hay|
  {
    if |needle| <= |hay| && hay[..|needle|] != needle && |hay| > 0 {
      ContainsIff(hay[1..], needle);
      if exists i :: OccursAt(hay[1..], needle, i) {
        var i :| OccursAt(hay[1..], needle, i);
        assert hay[i + 1..i + 1 + |needle|] == hay[1..][i..i + |needle|];
        assert OccursAt(hay, needle, i + 1);
      }
      if exists i :: OccursAt(hay, needle, i) {
        var i :| OccursAt(hay, needle, i);
        assert i != 0;
        assert hay[1..][i - 1..i - 1 + |needle|] == hay[i..i + |needle|];
        assert OccursAt(hay[1..], needle, i - 1);
      }
    } else if |needle| <= |hay| && hay[..|needle|] == needle {
      assert OccursAt(hay, needle, 0);
    }
  }

  /** The characters JavaScript's `trim` removes and the regular-expression
      class `\s` matches: WhiteSpace and LineTerminator of ECMAScript. */
  predicate IsJsSpace(c: char) {
    || c == '\t' || c == '\n' || c == '\U{000B}' || c == '\U{000C}' || c == '\r'
    || c == ' ' || c == '\U{00A0}' || c == '\U{1680}'
    || ('\U{2000}' <= c <= '\U{200A}')
    || c == '\U{2028}' || c == '\U{2029}' || c == '\U{202F}' || c == '\U{205F}'
    || c == '\U{3000}' || c == '\U{FEFF}'
  }

  predicate AllSpace(s: string) {
    forall i :: 0 <= i < |s| ==> IsJsSpace(s[i])
  }

  function TrimStart(s: string): (r: string)
    ensures |r| <= |s| && r == s[|s| - |r|..]
    ensures AllSpace(s[..|s| - |r|])
    ensures |r| == 0 || !IsJsSpace(r[0])
  {
    if |s| > 0 && IsJsSpace(s[0]) then TrimStart(s[1..]) else s
  }

  function TrimEnd(s: string): (r: string)
    ensures |r| <= |s| && r == s[..|r|]
    ensures AllSpace(s[|r|..])
    ensures |r| == 0 || !IsJsSpace(r[|r| - 1])
  {
    if |s| > 0 && IsJsSpace(s[|s| - 1]) then TrimEnd(s[..|s| - 1]) else s
  }

  /** `s.trim()`: a slice of `s` with the surrounding white space removed. */
  function Trim(s: string): (r: string)
    ensures exists i, j :: 0 <= i <= j <= |s| && r == s[i..j] && AllSpace(s[..i]) && AllSpace(s[j..])
    ensures r == [] <==> AllSpace(s)
    ensures r != [] ==> !IsJsSpace(r[0]) && !IsJsSpace(r[|r| - 1])
  {
    var t := TrimStart(s);
    var r := TrimEnd(t);
    var i := |s| - |t|;
    TrimParts(s, t, r, i);
    assert r == s[i..i + |r|] && AllSpace(s[..i]) && AllSpace(s[i + |r|..]);
    r
  }

  lemma AllSpaceJoin(a: string, b: string)
    requires AllSpace(a) && AllSpace(b)
    ensures AllSpace(a + b)
  {
    forall k | 0 <= k < |a + b| ensures IsJsSpace((a + b)[k]) {
      if k < |a| {
        assert (a + b)[k] == a[k];
      } else {
        assert (a + b)[k] == b[k - |a|];
      }
    }
  }

  /** The two halves of `trim`, stated on their results alone. */
  lemma TrimParts(s: string, t: string, r: string, i: int)
    requires 0 <= i <= |s| && t == s[i..] && AllSpace(s[..i]) && (|t| == 0 || !IsJsSpace(t[0]))
    requires |r| <= |t| && r == t[..|r|] && AllSpace(t[|r|..])
    ensures i + |r| <= |s| && r == s[i..i + |r|] && AllSpace(s[i + |r|..])
    ensures r == [] <==> AllSpace(s)
  {
    assert s[i + |r|..] == t[|r|..];
    if r == [] {
      assert t[|r|..] == t;
      AllSpaceJoin(s[..i], t);
      assert s[..i] + t == s;
    }
  }

  /** `s.length` in JavaScript: characters outside the Basic Multilingual
      Plane take two UTF-16 code units. */
  function Utf16Length(s: string): (n: nat)
    ensures |s| <= n <= 2 * |s|
  {
    if |s| == 0 then 0
    else (if s[0] as int >= 0x10000 then 2 else 1) + Utf16Length(s[1..])
  }

  /** PHP `str_replace(pat, '', s)`: scans left to right and deletes every
      non-overlapping occurrence of `pat`, without rescanning the output. */
  function RemoveAll(s: string, pat: string): (r: string)
    requires |pat| > 0
    ensures |r| <= |s|
    decreases |s|
  {
    if |s| < |pat| then s
    else if s[..|pat|] == pat then RemoveAll(s[|pat|..], pat)
    else [s[0]] + RemoveAll(s[1..], pat)
  }

  /** An occurrence in the tail is an occurrence one further on in the whole. */
  lemma OccursShift(s: string, pat: string, i: int)
    requires |s| > 0 && 0 <= i
    ensures OccursAt(s[1..], pat, i) <==> OccursAt(s, pat, i + 1)
  {
    if i + |pat| <= |s| - 1 {
      assert s[i + 1..i + 1 + |pat|] == s[1..][i..i + |pat|];
    }
  }

  /** With no occurrence at the start, the first character is kept. */
  lemma RemoveAllKeepsHead(s: string, pat: string)
    requires |pat| > 0 && |s| > 0 && !OccursAt(s, pat, 0)
    ensures RemoveAll(s, pat) == [s[0]] + RemoveAll(s[1..], pat)
  {
    if |s| >= |pat| {
      assert s[..|pat|] != pat;
    }
    else {
      RemoveAllShort(s, pat);
      RemoveAllShort(s[1..], pat);
    }
  }

  lemma RemoveAllShort(s: string, pat: string)
    requires |pat| > 0 && |s| < |pat|
    ensures RemoveAll(s, pat) == s
  {}

  /** A string with no occurrence of the pattern passes through unchanged. */
  lemma {:induction false} RemoveAllAbsent(s: string, pat: string)
    requires |pat| > 0
    requires forall i :: !OccursAt(s, pat, i)
    ensures RemoveAll(s, pat) == s
    decreases |s|
  {
    if |s| > 0 {
      RemoveAllKeepsHead(s, pat);
      forall i ensures !OccursAt(s[1..], pat, i) {
        if 0 <= i {
          OccursShift(s, pat, i);
        }
      }
      RemoveAllAbsent(s[1..], pat);
      assert [s[0]] + s[1..] == s;
    }
  }

  /** Occurrences are removed wherever they sit, not only at the start:
      when no occurrence begins inside `a`, the one after `a` is deleted and
      both sides are processed independently. */
  lemma {:induction false} RemoveAllSplits(a: string, b: string, pat: string)
    requires |pat| > 0
    requires forall i :: 0 <= i < |a| ==> !OccursAt(a + pat + b, pat, i)
    ensures RemoveAll(a + pat + b, pat) == a + RemoveAll(b, pat)
    decreases |a|
  {
    var s := a + pat + b;
    if |a| == 0 {
      assert s == pat + b;
      assert s[..|pat|] == pat;
      assert s[|pat|..] == b;
    } else {
      RemoveAllKeepsHead(s, pat);
      var tail := a[1..] + pat + b;
      assert s[1..] == tail;
      forall i | 0 <= i < |a[1..]| ensures !OccursAt(tail, pat, i) {
        OccursShift(s, pat, i);
      }
      RemoveAllSplits(a[1..], b, pat);
      assert s[0] == a[0];
      assert [a[0]] + a[1..] == a;
    }
  }

  function DigitChar(d: nat): char
    requires d < 10
  {
    "0123456789"[d]
  }

  predicate IsDigit(c: char) {
    '0' <= c <= '9'
  }

  function DigitValue(c: char): (d: nat)
    requires IsDigit(c)
    ensures d < 10 && DigitChar(d) == c
  {
    c as int - '0' as int
  }

  /** Decimal rendering of a natural number, most significant digit first. */
  function NatToText(n: nat): (r: string)
    ensures |r| > 0 && forall i :: 0 <= i < |r| ==> IsDigit(r[i])
  {
    if n < 10 then [DigitChar(n)] else NatToText(n / 10) + [DigitChar(n % 10)]
  }

  /** Decimal rendering of an integer, as PHP's string cast and JSON write it. */
  function IntToText(i: int): string {
    if i < 0 then "-" + NatToText(-i) else NatToText(i)
  }

  /** The value of a string of decimal digits. */
  function DigitsValue(s: string): nat
    requires forall i :: 0 <= i < |s| ==> IsDigit(s[i])
  {
    if |s| == 0 then 0 else DigitsValue(s[..|s| - 1]) * 10 + DigitValue(s[|s| - 1])
  }

  /** The longest prefix of `s` made of decimal digits. */
  function DigitPrefix(s: string): (r: string)
    ensures |r| <= |s| && r == s[..|r|]
    ensures forall i :: 0 <= i < |r| ==> IsDigit(r[i])
    ensures |r| == |s| || !IsDigit(s[|r|])
  {
    if |s| > 0 && IsDigit(s[0]) then [s[0]] + DigitPrefix(s[1..]) else []
  }

  /** `parseInt(s)` for decimal input: leading white space is skipped, a sign
      is read, then the longest run of digits; no digit at all is NaN. */
  function JsParseInt(s: string): (r: Option<int>)
    ensures AllSpace(s) ==> r.None?
    ensures r.None? <==>
      var t := TrimStart(s);
      var u := if |t| > 0 && (t[0] == '-' || t[0] == '+') then t[1..] else t;
      |u| == 0 || !IsDigit(u[0])
  {
    var t := TrimStart(s);
    assert |t| > 0 ==> t[0] == s[|s| - |t|];
    ParseSigned(t)
  }

  /** The sign-and-digits part of `parseInt`, after the white space. */
  function ParseSigned(t: string): Option<int> {
    var neg := |t| > 0 && t[0] == '-';
    var u := if |t| > 0 && (t[0] == '-' || t[0] == '+') then t[1..] else t;
    var ds := DigitPrefix(u);
    if |ds| == 0 then None
    else
      var v: int := if neg then -(DigitsValue(ds) as int) else DigitsValue(ds);
      Some(v)
  }

  lemma {:induction false} DigitsOfNat(n: nat)
    ensures DigitsValue(NatToText(n)) == n
  {
    if n >= 10 {
      DigitsOfNat(n / 10);
      var r := NatToText(n);
      assert r[..|r| - 1] == NatToText(n / 10);
    }
  }

  lemma {:induction false} DigitPrefixAll(s: string)
    requires forall i :: 0 <= i < |s| ==> IsDigit(s[i])
    ensures DigitPrefix(s) == s
  {
    if |s| > 0 {
      DigitPrefixAll(s[1..]);
    }
  }

  /** Parsing a digit string with nothing before it reads all of it. */
  lemma ParseDigits(s: string)
    requires |s| > 0 && forall i :: 0 <= i < |s| ==> IsDigit(s[i])
    ensures JsParseInt(s) == Some(DigitsValue(s))
  {
    TrimStartKeeps(s);
    SignedPos(s);
  }

  lemma SignedPos(s: string)
    requires |s| > 0 && forall i :: 0 <= i < |s| ==> IsDigit(s[i])
    ensures ParseSigned(s) == Some(DigitsValue(s))
  {
    DigitPrefixAll(s);
  }

  /** Parsing a minus sign followed by a digit string reads its negation. */
  lemma ParseNegDigits(s: string)
    requires |s| > 0 && forall i :: 0 <= i < |s| ==> IsDigit(s[i])
    ensures JsParseInt("-" + s) == Some(-(DigitsValue(s) as int))
  {
    var t := "-" + s;
    assert t[0] == '-' && t[1..] == s;
    TrimStartKeeps(t);
    SignedNeg(t, s);
  }

  lemma TrimStartKeeps(t: string)
    requires |t| > 0 && !IsJsSpace(t[0])
    ensures TrimStart(t) == t
  {}

  lemma SignedNeg(t: string, s: string)
    requires |s| > 0 && forall i :: 0 <= i < |s| ==> IsDigit(s[i])
    requires |t| > 0 && t[0] == '-' && t[1..] == s
    ensures ParseSigned(t) == Some(-(DigitsValue(s) as int))
  {
    DigitPrefixAll(s);
  }

  /** Reading back a rendered integer gives the integer: the JavaScript
      parse inverts the PHP rendering. */
  lemma IntTextRoundTrip(i: int)
    ensures JsParseInt(IntToText(i)) == Some(i)
  {
    if i < 0 {
      DigitsOfNat(-i);
      ParseNegDigits(NatToText(-i));
    } else {
      DigitsOfNat(i);
      ParseDigits(NatToText(i));
    }
  }
}

=== FILE: token_codec.dfy ===
/** The bearer token's payload and its text form. The original writes
    `base64_encode(json_encode($payload))`; this module stands in a concrete
    text encoding with the two properties the guard relies on: the decoder
    reads back whatever the encoder wrote, and an encoded token contains no
    space (a base64 string never does), so it survives the removal of
    "Bearer " from the header. Nothing is signed: anyone who can encode can
    mint a token. */
module TokenCodec {
  import opened Wrappers
  import Text

  /** The `user` entry of the payload: the caller's identity. */
  datatype Claim = Claim(id: int, name: string, email: string, role: string)

  /** `['user' => ..., 'iat' => ..., 'exp' => ...]`; an absent key is `None`. */
  datatype Payload = Payload(user: Option<Claim>, iat: Option<int>, exp: Option<int>)

  /** Natural numbers: decimal digits, least significant first, closed by ';'. */
  function EncodeNat(n: nat): (r: string)
    ensures |r| >= 2 && Text.IsDigit(r[0])
  {
    [Text.DigitChar(n % 10)] + (if n < 10 then ";" else EncodeNat(n / 10))
  }

  /** The shape of a written number: the units digit first, then the digits
      of `n / 10` in the same layout, every character a digit except the
      closing ';', which is the only one. */
  lemma {:induction false} EncodeNatShape(n: nat)
    ensures var r := EncodeNat(n);
      && r[|r| - 1] == ';'
      && (forall i :: 0 <= i < |r| - 1 ==> Text.IsDigit(r[i]))
      && Text.DigitValue(r[0]) == n % 10
      && (n < 10 <==> |r| == 2)
      && (n >= 10 ==> r[1..] == EncodeNat(n / 10))
    decreases n
  {
    var r := EncodeNat(n);
    if n >= 10 {
      EncodeNatShape(n / 10);
      assert r[1..] == EncodeNat(n / 10);
    }
  }

  function DecodeNat(s: string): Option<(nat, string)>
    decreases |s|
  {
    if |s| < 2 || !Text.IsDigit(s[0]) then None
    else if s[1] == ';' then Some((Text.DigitValue(s[0]), s[2..]))
    else match DecodeNat(s[1..])
      case None => None
      case Some((m, rest)) => Some((Text.DigitValue(s[0]) + 10 * m, rest))
  }

  lemma {:induction false} NatRoundTrip(n: nat, t: string)
    ensures DecodeNat(EncodeNat(n) + t) == Some((n, t))
  {
    var s := EncodeNat(n) + t;
    assert s[0] == Text.DigitChar(n % 10);
    if n < 10 {
      assert s[1] == ';' && s[2..] == t;
    } else {
      var e := EncodeNat(n / 10);
      assert s[1..] == e + t;
      assert s[1] == e[0];
      NatRoundTrip(n / 10, t);
    }
  }

  function EncodeInt(i: int): string
  {
    if i < 0 then "-" + EncodeNat(-i) else "+" + EncodeNat(i)
  }

  function DecodeInt(s: string): Option<(int, string)> {
    if |s| == 0 || (s[0] != '-' && s[0] != '+') then None
    else match DecodeNat(s[1..])
      case None => None
      case Some((n, rest)) =>
        var i: int := if s[0] == '-' then -(n as int) else n;
        Some((i, rest))
  }

  lemma IntRoundTrip(i: int, t: string)
    ensures DecodeInt(EncodeInt(i) + t) == Some((i, t))
  {
    var n: nat := if i < 0 then -i else i;
    var s := EncodeInt(i) + t;
    assert s[0] == (if i < 0 then '-' else '+') && s[1..] == EncodeNat(n) + t;
    NatRoundTrip(n, t);
  }

  /** Each character becomes two: '.' and itself, or "_s" for a space. */
  function EscapeChar(c: char): (r: string)
    ensures |r| == 2
  {
    if c == ' ' then "_s" else ['.', c]
  }

  function UnescapeChar(a: char, b: char): Option<char> {
    if a == '.' && b != ' ' then Some(b)
    else if a == '_' && b == 's' then Some(' ')
    else None
  }

  function Escape(s: string): (r: string)
    ensures |r| == 2 * |s|
  {
    if |s| == 0 then [] else EscapeChar(s[0]) + Escape(s[1..])
  }

  /** Reads `n` escaped characters from the front of `s`. */
  function Unescape(s: string, n: nat): Option<(string, string)> {
    if n == 0 then Some(([], s))
    else if |s| < 2 then None
    else match UnescapeChar(s[0], s[1])
      case None => None
      case Some(c) =>
        match Unescape(s[2..], n - 1)
        case None => None
        case Some((cs, rest)) => Some(([c] + cs, rest))
  }

  lemma {:induction false} EscapeRoundTrip(s: string, t: string)
    ensures Unescape(Escape(s) + t, |s|) == Some((s, t))
  {
    if |s| > 0 {
      var e := Escape(s) + t;
      var p := EscapeChar(s[0]);
      assert e == p + (Escape(s[1..]) + t);
      assert e[0] == p[0] && e[1] == p[1];
      assert e[2..] == Escape(s[1..]) + t;
      assert UnescapeChar(e[0], e[1]) == Some(s[0]);
      EscapeRoundTrip(s[1..], t);
      assert Unescape(e[2..], |s| - 1) == Some((s[1..], t));
      assert [s[0]] + s[1..] == s;
    } else {
      assert Escape(s) + t == t;
    }
  }

  /** Strings: the length, then the escaped characters. */
  function EncodeText(s: string): string
  {
    EncodeNat(|s|) + Escape(s)
  }

  function DecodeText(s: string): Option<(string, string)> {
    match DecodeNat(s)
    case None => None
    case Some((n, rest)) => Unescape(rest, n)
  }

  lemma TextRoundTrip(s: string, t: string)
    ensures DecodeText(EncodeText(s) + t) == Some((s, t))
  {
    assert EncodeText(s) + t == EncodeNat(|s|) + (Escape(s) + t);
    NatRoundTrip(|s|, Escape(s) + t);
    EscapeRoundTrip(s, t);
  }

  function EncodeOptInt(o: Option<int>): string
  {
    match o
    case None => "n"
    case Some(i) => "s" + EncodeInt(i)
  }

  function DecodeOptInt(s: string): Option<(Option<int>, string)> {
    if |s| == 0 then None
    else if s[0] == 'n' then Some((None, s[1..]))
    else if s[0] == 's' then
      match DecodeInt(s[1..])
      case None => None
      case Some((i, rest)) => Some((Some(i), rest))
    else None
  }

  lemma OptIntRoundTrip(o: Option<int>, t: string)
    ensures DecodeOptInt(EncodeOptInt(o) + t) == Some((o, t))
  {
    var s := EncodeOptInt(o) + t;
    if o.Some? {
      assert s[0] == 's' && s[1..] == EncodeInt(o.value) + t;
      IntRoundTrip(o.value, t);
    } else {
      assert s[0] == 'n' && s[1..] == t;
    }
  }

  function EncodeClaim(c: Claim): string
  {
    EncodeInt(c.id) + EncodeText(c.name) + EncodeText(c.email) + EncodeText(c.role)
  }

  function DecodeClaim(s: string): Option<(Claim, string)> {
    match DecodeInt(s)
    case None => None
    case Some((id, r1)) =>
      match DecodeText(r1)
      case None => None
      case Some((name, r2)) =>
        match DecodeText(r2)
        case None => None
        case Some((email, r3)) =>
          match DecodeText(r3)
          case None => None
          case Some((role, r4)) => Some((Claim(id, name, email, role), r4))
  }

  lemma ClaimRoundTrip(c: Claim, t: string)
    ensures DecodeClaim(EncodeClaim(c) + t) == Some((c, t))
  {
    var r3 := EncodeText(c.role) + t;
    var r2 := EncodeText(c.email) + r3;
    var r1 := EncodeText(c.name) + r2;
    var s := EncodeClaim(c) + t;
    assert s == EncodeInt(c.id) + r1;
    IntRoundTrip(c.id, r1);
    assert DecodeInt(s) == Some((c.id, r1));
    TextRoundTrip(c.name, r2);
    TextRoundTrip(c.email, r3);
    TextRoundTrip(c.role, t);
  }

  function EncodeUser(u: Option<Claim>): string
  {
    match u
    case None => "n"
    case Some(c) => "s" + EncodeClaim(c)
  }

  function DecodeUser(s: string): Option<(Option<Claim>, string)> {
    if |s| == 0 then None
    else if s[0] == 'n' then Some((None, s[1..]))
    else if s[0] == 's' then
      match DecodeClaim(s[1..])
      case None => None
      case Some((c, rest)) => Some((Some(c), rest))
    else None
  }

  lemma UserRoundTrip(u: Option<Claim>, t: string)
    ensures DecodeUser(EncodeUser(u) + t) == Some((u, t))
  {
    var s := EncodeUser(u) + t;
    match u
    case None =>
      assert s[0] == 'n' && s[1..] == t;
    case Some(c) =>
      var e := EncodeClaim(c);
      TagSplit('s', e, t);
      ClaimRoundTrip(c, t);
      DecodeSomeUser(s, c, t);
  }

  lemma TagSplit(tag: char, body: string, t: string)
    ensures ([tag] + body + t)[0] == tag && ([tag] + body + t)[1..] == body + t
  {}

  lemma DecodeSomeUser(s: string, c: Claim, t: string)
    requires |s| > 0 && s[0] == 's' && DecodeClaim(s[1..]) == Some((c, t))
    ensures DecodeUser(s) == Some((Some(c), t))
  {}

  /** The token text of a payload (`base64_encode(json_encode($payload))`). */
  function Encode(p: Payload): string
  {
    EncodeUser(p.user) + EncodeOptInt(p.iat) + EncodeOptInt(p.exp)
  }

  /** `json_decode(base64_decode($token), true)`: `None` when the text is not
      a whole encoded payload. */
  function Decode(t: string): Option<Payload> {
    match DecodeUser(t)
    case None => None
    case Some((user, r1)) =>
      match DecodeOptInt(r1)
      case None => None
      case Some((iat, r2)) =>
        match DecodeOptInt(r2)
        case None => None
        case Some((exp, r3)) => if r3 == [] then Some(Payload(user, iat, exp)) else None
  }

  /** Decoding reads back exactly the payload that was encoded. */
  lemma RoundTrip(p: Payload)
    ensures Decode(Encode(p)) == Some(p)
  {
    var r2 := EncodeOptInt(p.exp);
    var r1 := EncodeOptInt(p.iat) + r2;
    assert Encode(p) == EncodeUser(p.user) + r1;
    UserRoundTrip(p.user, r1);
    OptIntRoundTrip(p.iat, r2);
    OptIntRoundTrip(p.exp, []);
    assert r2 + [] == r2;
  }

  lemma {:induction false} NatSpaceFree(n: nat)
    ensures ' ' !in EncodeNat(n)
  {
    if n >= 10 {
      NatSpaceFree(n / 10);
    }
  }

  lemma {:induction false} EscapeSpaceFree(s: string)
    ensures ' ' !in Escape(s)
  {
    if |s| > 0 {
      EscapeSpaceFree(s[1..]);
    }
  }

  lemma IntSpaceFree(i: int)
    ensures ' ' !in EncodeInt(i)
  {
    NatSpaceFree(if i < 0 then -i else i);
  }

  lemma TextSpaceFree(s: string)
    ensures ' ' !in EncodeText(s)
  {
    NatSpaceFree(|s|);
    EscapeSpaceFree(s);
  }

  lemma OptIntSpaceFree(o: Option<int>)
    ensures ' ' !in EncodeOptInt(o)
  {
    if o.Some? {
      IntSpaceFree(o.value);
    }
  }

  lemma UserSpaceFree(u: Option<Claim>)
    ensures ' ' !in EncodeUser(u)
  {
    if u.Some? {
      var c := u.value;
      IntSpaceFree(c.id);
      TextSpaceFree(c.name);
      TextSpaceFree(c.email);
      TextSpaceFree(c.role);
    }
  }

  /** An encoded token never contains a space, as a base64 string never does. */
  lemma SpaceFree(p: Payload)
    ensures ' ' !in Encode(p)
  {
    UserSpaceFree(p.user);
    OptIntSpaceFree(p.iat);
    OptIntSpaceFree(p.exp);
  }
}

=== FILE: users.dfy ===
/** backend/api/users.php: the administrators' list of accounts. */
module Users {
  import opened Wrappers
  import opened Store
  import AuthGuard
  import TokenCodec

  /** `SELECT id, name, email, role, created_at`: every column but the
      password hash. */
  function Listed(users: seq<User>): (r: seq<UserRow>)
    ensures |r| == |users|
    ensures forall k :: 0 <= k < |r| ==>
      r[k].id == users[k].id && r[k].name == users[k].name && r[k].email == users[k].email
      && r[k].role == users[k].role && r[k].createdAt == users[k].createdAt
  {
    seq(|users|, k requires 0 <= k < |users| =>
      var u := users[k];
      UserRow(u.id, u.name, u.email, u.role, u.createdAt))
  }

  /** The token is accepted and names an administrator. */
  predicate AdminCaller(req: Request, env: Env) {
    var who := AuthGuard.Authenticate(req.authorization, env.now);
    who.Success? && who.value.role == "admin"
  }

  /** The request handler: authentication, then the admin check for every
      method, then GET only. */
  function HandleUsers(db: Db, env: Env, req: Request): (r: Response)
    ensures AuthGuard.Authenticate(req.authorization, env.now).Failure? ==>
      r == AuthGuard.Authenticate(req.authorization, env.now).error
    ensures AuthGuard.Authenticate(req.authorization, env.now).Success? ==>
      (AuthGuard.Authenticate(req.authorization, env.now).value.role != "admin" <==> r == AdminRequired)
    ensures r.code == 200 ==>
      && req.verb == GET
      && AdminCaller(req, env)
      && r.body.UserList?
      && multiset(r.body.users) == multiset(Listed(db.users))
      && forall i, j :: 0 <= i < j < |r.body.users| ==> r.body.users[i].createdAt >= r.body.users[j].createdAt
    ensures AdminCaller(req, env) ==> (r.code == 200 <==> req.verb == GET) && (req.verb != GET ==> r == MethodNotAllowed)
  {
    match AuthGuard.Authenticate(req.authorization, env.now)
    case Failure(resp) => resp
    case Success(user) =>
      if user.role != "admin" then AdminRequired
      else if req.verb == GET then
        var created := (u: UserRow) => u.createdAt;
        NewestFirstOrdered(Listed(db.users), created);
        Response(200, UserList(NewestFirst(Listed(db.users), created)))
      else MethodNotAllowed
  }
}

=== FILE: wrappers.dfy ===
/** Optional values and results with an error side, used wherever the
    modelled code can find nothing or fail. */
module Wrappers {

  datatype Option<+T> = None | Some(value: T)

  datatype Result<+T, +E> = Success(value: T) | Failure(error: E)
}
